=== FILE: README.md ===
# QuickDesk backend in Dafny

QuickDesk is a helpdesk. Users file support tickets, agents and admins triage
and resolve them, comments and votes accumulate on each ticket, and an admin
manages categories, users and role-upgrade requests. This project models the
Express/Mongoose backend that enforces all of that:

- the `auth` and `authorize` middlewares;
- the ticket routes: create, the filtered, sorted and paged list, read, status
  change, comment and vote;
- the upgrade-request workflow, in which an approval rewrites a user's role;
- the category, user and register/login routes;
- the Ticket and UpgradeRequest schemas (enums, defaults, required fields and
  the ticket-number formatter).

## How the model is built

- **Routes are pure functions.** Each route takes the collections (`Database.Store`),
  the authenticated user `me` and the request fields. It returns a
  `Database.Reply`: the response (`Ok(code, body)` or `Fail(code, message)`)
  together with the collections afterwards.
- **Collections are sequences** kept in insertion order. A lookup by `_id` finds
  the first document with that id (`Common.IndexOf`).
- **Absent body or query fields are `None`.**
  - A validator sees `""` for an absent field.
  - JavaScript truthiness is `Common.Present`.
  - `x || d` is `Common.OrDefault`.
  - express-validator's `trim()` rewrites the field, so the stored text is the
    trimmed text. `Common.Trim` strips exactly JavaScript's `\s` characters.
- **Save failures are 500s.** A Mongoose validation error on save (a value
  outside an enum, a missing required field) reaches the route's `catch` and
  becomes a 500.
- **Route guards wrap the handlers.**
  - `AuthMiddleware.WithAuth` runs a handler only for an authenticated user.
  - `AuthMiddleware.Authorize` runs it only for the listed roles.
- **Generated values and library calls are parameters.**
  - New ObjectIds (`id`, and `number` for a ticket number) are parameters,
    assumed unused.
  - The clock is a parameter `now`.
  - JWT verification, the e-mail validator, password hashing and
    `comparePassword` are function parameters.
- **Sorting and paging.**
  - Sort keys are integer sequences compared lexicographically. A missing field
    is the empty key, which sorts first, as BSON null does.
  - `Order.Sort` returns a sorted permutation.
  - `Order.Page` is `.skip((page - 1) * limit).limit(limit)`, and
    `Order.CeilDiv` is `Math.ceil`.
- **The intended search is a substring test.** `TicketQuery.ListTickets` takes
  the list's `$regex` search with option `i` as a case-insensitive substring
  test (`Common.MatchesCI`) on subject, description and ticket number. As the
  code stands, that `$regex` on the ObjectId path `ticketNumber` makes any
  non-empty search answer 500 (`TicketQuery.ListTicketsAsWritten`, under
  Findings).
- **Lengths are counted as validator.js's `isLength` counts them.** Every
  character counts except the variation selectors U+FE0E and U+FE0F
  (`Common.ValidatorLength`).
- **`Database.Valid` is the store invariant.** Ids, e-mail addresses and ticket
  numbers are unique, and no user holds both an upvote and a downvote on a
  ticket. Every mutating route is proved to preserve it.

## Model

| member | source | states |
|---|---|---|
| Common.IndexOf | backend/routes/tickets.js:149 | `findById`: the result is the first document whose id matches, and it is `None` exactly when no document has the id |
| Common.IndexOfIsUnique | backend/routes/tickets.js:149-157 | with unique ids, looking up a stored document's own id finds exactly that document |
| Common.Trim | backend/routes/tickets.js:42-43 | the trimmed text is a contiguous piece of the input, with only whitespace cut from either end and no whitespace left at either end |
| Common.ValidatorLengthCounts | backend/routes/tickets.js:42-43 | `isLength` counts every character of the text except the variation selectors U+FE0E and U+FE0F |
| Common.ContainsIff | backend/routes/tickets.js:113-118 | the recursive substring test used by the search holds exactly when the search text occurs at some position |
| Order.Sort | backend/routes/tickets.js:121-128 | `.sort({ field: ±1 })`: the result is ordered by the key in the requested direction and is a permutation of the input |
| Order.SortedUnique | backend/routes/tickets.js:121-128 | when no two elements share a key, two sorted arrangements of the same elements are equal: the sort's only freedom is the order of ties |
| Order.Page | backend/routes/tickets.js:129-130 | skip then limit: at most `limit` elements, empty once the skip passes the end, and element k is input element `(page - 1) * limit + k` |
| Order.CeilDiv | backend/routes/tickets.js:136 | `Math.ceil(total / limit)`: the least number of pages of size `limit` that hold `total` items |
| Order.PageOf | backend/routes/tickets.js:129-136 | the item at position i is on page `i / limit + 1`, at offset `i % limit`, and that page is no later than `totalPages` |
| Order.PastLastPage | backend/routes/tickets.js:129-136 | any page after `totalPages` is empty |
| Roles.ParseRole | backend/routes/users.js:22-26 | exactly "user", "agent" and "admin" are roles, and parsing inverts the role's text |
| TicketModel.ParsePriority | backend/models/Ticket.js:54-58 | exactly the four enum values parse, and parsing inverts the priority's text |
| TicketModel.ParseStatus | backend/models/Ticket.js:59-63 | exactly the four enum values parse, and parsing inverts the status's text |
| TicketModel.NewComment | backend/models/Ticket.js:3-17 | a comment saves iff its message is non-empty; it keeps author and message, and `isInternal` is true only when given as true |
| TicketModel.FormatTicketNumber | backend/models/Ticket.js:107 | the number is "QD-" followed by decimal digits: exactly six, or more without a leading zero once the count needs them |
| TicketModel.TicketNumberRoundTrip | backend/models/Ticket.js:107 | parsing a formatted ticket number gives back the count it was formatted from |
| TicketModel.TicketNumberInjective | backend/models/Ticket.js:107 | distinct counts give distinct ticket numbers |
| TicketModel.PreSaveTicketNumber | backend/models/Ticket.js:104-110 | the hook keeps an existing number, and only an empty one is replaced: by "QD-" and exactly six digits (more, without a leading zero, once needed) that read back as the count |
| UpgradeRequestModel.ParseRequestStatus | backend/models/UpgradeRequest.js:31-35 | exactly pending, approved and rejected parse, and parsing inverts the status's text |
| UpgradeRequestModel.ParseTargetRole | backend/models/UpgradeRequest.js:22-26 | only "agent" and "admin" may be requested |
| UpgradeRequestModel.NewUpgradeRequest | backend/models/UpgradeRequest.js:3-46 | a request saves iff name, e-mail and reason are given and both roles are in their enums; it starts pending, with empty notes and no reviewer |
| AuthMiddleware.Authenticate | backend/middleware/auth.js:4-24 | the answer is 401 unless the cookie is present, the token verifies and its id names a stored user, who is then the requester |
| AuthMiddleware.WithAuth | backend/middleware/auth.js:4-24 | the handler runs, as the authenticated user, only after authentication succeeds; otherwise 401 and nothing changes |
| AuthMiddleware.Authorize | backend/middleware/auth.js:26-33 | the handler runs iff the requester's role is listed; otherwise 403 and nothing changes |
| AuthMiddleware.InactiveUsersStillAuthenticate | backend/middleware/auth.js:13-20 | a deactivated user's valid token is still accepted |
| TicketRoutes.PriorityChoice | backend/routes/tickets.js:71 | an absent or empty priority means medium, and a given one must be in the enum |
| TicketRoutes.CreateTicket | backend/routes/tickets.js:37-85 | invalid fields give 400 and a priority outside the enum gives 500; otherwise exactly one open, unassigned, vote-free ticket owned by the requester is appended with the trimmed texts and the uploaded files |
| TicketRoutes.CreateTicketAsWritten | backend/routes/tickets.js:46-83 | as written, a valid request always ends in 500 and stores nothing |
| TicketRoutes.CreateAsWrittenLosesTickets | backend/routes/tickets.js:64 | every request the corrected route stores is answered 500, and lost, by the route as written |
| TicketRoutes.CreateAsWrittenExample | backend/routes/tickets.js:64 | a concrete request (a subject of five and a description of ten 'x' characters, category the ObjectId "507f1f77bcf86cd799439011") that the corrected route stores (201) and the route as written refuses (500) |
| TicketRoutes.GetTicket | backend/routes/tickets.js:147-169 | an unknown id gives 404; a plain user gets 403 for someone else's ticket; otherwise the stored ticket with that id |
| TicketRoutes.UsersCannotReadOthersTickets | backend/routes/tickets.js:159-162 | a plain user asking for a ticket created by someone else always gets 403 |
| TicketRoutes.StaffReadEveryTicket | backend/routes/tickets.js:147-164 | agents and admins receive every stored ticket |
| TicketRoutes.ApplyStatus | backend/routes/tickets.js:181-185 | the new status is set; resolving stamps `resolvedAt`, closing stamps `closedAt`, no stamp is ever cleared, and no other field changes |
| TicketRoutes.ChangeStatus | backend/routes/tickets.js:172-199 | plain users get 403; a status outside the four gives 400 before the lookup; an unknown id gives 404; otherwise only that ticket is rewritten |
| TicketRoutes.ResolveThenClose | backend/routes/tickets.js:181-183 | resolving and then closing a ticket keeps both stamps |
| TicketRoutes.AddComment | backend/routes/tickets.js:202-250 | a blank message gives 400, an unknown ticket 404, a plain user on another's ticket 403; otherwise exactly one comment is appended, internal iff the field is "true" |
| TicketRoutes.CommentsOnlyGrow | backend/routes/tickets.js:240-241 | after a comment request every ticket still starts with the comments it had, and at most one was added |
| TicketRoutes.Without | backend/routes/tickets.js:265-266 | the filter removes every occurrence of the voter and keeps every other id as often as before |
| TicketRoutes.CastVote | backend/routes/tickets.js:264-273 | afterwards the voter is upvoting iff the type is "up" and downvoting iff it is "down", never both; other voters and other fields are untouched |
| TicketRoutes.CastVoteIdempotent | backend/routes/tickets.js:264-273 | casting the same vote twice leaves the lists as one cast did |
| TicketRoutes.Vote | backend/routes/tickets.js:253-286 | any requester may vote on an existing ticket (404 otherwise); the answer carries the new counts and the requested type |
| TicketRoutes.RepeatedVoteKeepsCounts | backend/routes/tickets.js:253-281 | repeating a vote gives the same answer |
| TicketQuery.Matching | backend/routes/tickets.js:102-119 | the query keeps exactly the tickets that pass every present filter, each as often as it is stored |
| TicketQuery.ListTickets | backend/routes/tickets.js:88-144 | the page holds only stored tickets that match, sorted, at most `limit` of them; `total` counts all matches; `totalPages` is the ceiling of `total / limit` |
| TicketQuery.UsersListOnlyOwnTickets | backend/routes/tickets.js:104-107 | a plain user lists only their own tickets, whatever `myTickets` says |
| TicketQuery.StaffScope | backend/routes/tickets.js:104-107 | agents and admins are narrowed to their own tickets only by `myTickets=true`; otherwise an unfiltered list counts every ticket |
| TicketQuery.TotalsIgnorePage | backend/routes/tickets.js:132-138 | `total` and `totalPages` do not depend on the page asked for |
| TicketQuery.PastEndIsEmpty | backend/routes/tickets.js:129-138 | a page after the last one is empty but still reports the total |
| TicketQuery.EveryMatchIsListed | backend/routes/tickets.js:124-136 | every matching ticket appears on some page between 1 and `totalPages` |
| TicketQuery.SortByIdIsForced | backend/routes/tickets.js:121-130 | with `sortBy=_id`, ids being unique in a valid store, any sorted arrangement of the matches is the model's ranking: the pages are the ones MongoDB returns |
| TicketQuery.RankedIsForced | backend/routes/tickets.js:121-130 | when no two matching tickets share a sort key, any sorted arrangement of the matches is the model's ranking, so the pages are the same whatever order the database picks |
| TicketQuery.ListTicketsAsWritten | backend/routes/tickets.js:113-143 | as written, any non-empty search answers 500 and changes nothing; without a search the answer is the intended list |
| TicketQuery.SearchAsWrittenLosesMatches | backend/routes/tickets.js:113-118 | a search that a stored ticket satisfies lists at least one ticket under the intended route and answers 500 as written |
| TicketQuery.SearchMatchesDescriptionAlone | backend/routes/tickets.js:113-118 | the search is an OR: a match in the description alone selects the ticket |
| TicketQuery.SearchMissesUnrelated | backend/routes/tickets.js:113-118 | a ticket whose subject, description and number all lack the search text is not selected |
| UpgradeRoutes.CreateUpgradeRequest | backend/routes/upgradeRequests.js:8-60 | a pending request of the requester gives 400 before anything else; then the claimed path is checked (400), then the schema (500); otherwise one pending request of the requester is appended, its roles those of the body, asking for exactly the next role up |
| UpgradeRoutes.CreateIgnoresStoredRole | backend/routes/upgradeRequests.js:29-39 | the path check trusts the body's `currentRole`: the outcome does not depend on the stored role |
| UpgradeRoutes.UserCannotSkipToAdmin | backend/routes/upgradeRequests.js:33-35 | "user" asking for "admin" is refused with 400 |
| UpgradeRoutes.ListUpgradeRequests | backend/routes/upgradeRequests.js:63-80 | admins only (403); all requests, newest first |
| UpgradeRoutes.RequestsOf | backend/routes/upgradeRequests.js:124 | selects exactly the requests of the given user, each as often as stored |
| UpgradeRoutes.MyUpgradeRequests | backend/routes/upgradeRequests.js:122-133 | exactly the requester's own requests, newest first |
| UpgradeRoutes.CreatedRequestIsListed | backend/routes/upgradeRequests.js:41-55 | a request just created is among the creator's own requests |
| UpgradeRoutes.SetRole | backend/routes/upgradeRequests.js:105-109 | the user with the id, if any, gets the role, and nobody else changes |
| UpgradeRoutes.ReviewUpgradeRequest | backend/routes/upgradeRequests.js:83-119 | admins only (403), unknown id 404, a status outside the enum 500 with nothing changed; otherwise status, notes (default ''), reviewer and time are written whatever the old status, and only "approved" changes a user: the requester gets the requested role |
| UpgradeRoutes.ApprovalPromotesRequester | backend/routes/upgradeRequests.js:105-109 | approval sets the requester's role to the requested one and leaves every other user as it was |
| UpgradeRoutes.OnlyApprovalChangesUsers | backend/routes/upgradeRequests.js:105-109 | any status other than "approved" leaves every user unchanged |
| UpgradeRoutes.RejectAfterApproveKeepsRole | backend/routes/upgradeRequests.js:97-109 | a reviewed request can be reviewed again; rejecting an approved one succeeds and does not take the role back |
| UpgradeRoutes.ReviewCanReopen | backend/routes/upgradeRequests.js:97-102 | reviewing a rejected request back to "pending" can leave a user with two pending requests |
| UpgradeRoutes.ApprovedAgentListsEveryTicket | backend/routes/upgradeRequests.js:105-109 | after approval to agent, the requester authenticates as an agent and an unfiltered list without `myTickets` counts every ticket |
| CategoryRoutes.ActiveCategories | backend/routes/categories.js:11 | selects exactly the active categories, each as often as stored |
| CategoryRoutes.ListCategories | backend/routes/categories.js:9-17 | without authentication: exactly the active categories, by name ascending |
| CategoryRoutes.CreateCategory | backend/routes/categories.js:20-55 | admins only (403); a trimmed name under 2 characters, or a name any category already has, gives 400; otherwise one active category created by the requester is appended, with color "#007bff" when none is given; names stay unique |
| CategoryRoutes.UpdateCategory | backend/routes/categories.js:58-88 | admins only (403); a short name 400; an unknown id 404; the given fields replace the stored ones and the rest stay |
| CategoryRoutes.UpdateCanDuplicateName | backend/routes/categories.js:72-76 | update can give a category another's name, which create would refuse |
| CategoryRoutes.DeleteCategory | backend/routes/categories.js:91-104 | admins only (403), unknown id 404; otherwise the category is only marked inactive |
| CategoryRoutes.DeleteIsIdempotent | backend/routes/categories.js:93-99 | deleting twice succeeds both times and leaves what one delete left |
| CategoryRoutes.DeletedCategoryIsNotListed | backend/routes/categories.js:93-99 | after a delete the category no longer appears in the public list |
| UserRoutes.ActiveUsers | backend/routes/users.js:10 | selects exactly the active users, each as often as stored |
| UserRoutes.ListUsers | backend/routes/users.js:8-16 | admins only (403); the list is a permutation of the active users' profiles, each as often as the user is stored; profiles carry no password and are newest first |
| UserRoutes.UpdateUserRole | backend/routes/users.js:19-39 | admins only (403); a role outside the three gives 400 before the lookup; an unknown id 404; otherwise only that user's role changes |
| UserRoutes.LastRoleChangeWins | backend/routes/users.js:28 | changing a role twice ends where changing it once to the second role ends |
| UserRoutes.DeactivateUser | backend/routes/users.js:42-55 | admins only (403), unknown id 404; otherwise the account is only marked inactive |
| UserRoutes.DeactivateIsIdempotent | backend/routes/users.js:44-50 | deactivating twice succeeds both times and leaves what one call left |
| UserRoutes.DeactivatedUserIsNotListed | backend/routes/users.js:44-50 | after deactivation the user no longer appears in the user list |
| AuthRoutes.Register | backend/routes/auth.js:15-43 | invalid fields 400, a known e-mail 400, a role outside the enum 500; otherwise one active user with the hashed password and the body's role (default "user") is appended, and the answer exposes only id, name, e-mail and role |
| AuthRoutes.Login | backend/routes/auth.js:46-71 | invalid fields 400; an unknown e-mail or a wrong password both give 400 "Invalid credentials"; otherwise that user's id, name, e-mail and role; nothing is written |
| AuthRoutes.LoginFailuresLookAlike | backend/routes/auth.js:52-55 | the answers to an unknown e-mail and to a wrong password are identical |
| AuthRoutes.RegisterThenLogin | backend/routes/auth.js:15-71 | logging in with the credentials just registered returns the session registration returned |
| AuthRoutes.RegisterDefaultsToUser | backend/routes/auth.js:26 | without a role in the body the account is a plain user |
| AuthRoutes.RegisterTakesRoleFromBody | backend/routes/auth.js:26 | the body may name any role, admin included, and the account gets it |
| AuthRoutes.DeactivatedUserCanLogIn | backend/routes/auth.js:51-55 | deactivating an account does not change what login answers for it |

## Left out

- File uploads (multer's disk storage, file-type filter, size limit and random file names) are left out. Uploaded files arrive as an already-stored `seq<Attachment>`.
- JWT signing and verification, cookie handling, password hashing and `comparePassword` are function parameters, because they are library code. `genAuthToken` signs with `JWT_SECRET`, while `auth` falls back to a fixed secret; that configuration dependence is not modelled.
- The similar-ticket service behind the `axios.post` call is left out: it is a network call. The corrected create route (`TicketRoutes.CreateTicket`) omits the call, and the route as written (`TicketRoutes.CreateTicketAsWritten`) fails at it.
- `populate` is left out. Responses carry stored ids where the routes embed a referenced user's or category's name, e-mail or color.
- The User and Category models are not part of this model. A user's fields are those the routes use. The role enum is taken to be user/agent/admin. Saving a category or a user (apart from the role enum) is taken to succeed.
- Malformed ObjectIds are not modelled: the CastError they raise becomes a 500 in the routes. Ids are plain strings.
- Concurrency is not modelled. Each route runs as one step over the store, so the race between the pending-request check and the insert, and the two separate writes of an approval, are not modelled.
- TicketQuery.ListTickets: `page` and `limit` are taken as positive whole numbers (a precondition). The route coerces the query strings and never checks them.
- TicketQuery.ListTickets: the search text is taken to contain no regular-expression metacharacters, and case folding is ASCII-only.
- TicketQuery.ListTickets: the search on `ticketNumber` is the intended substring test on the number's text. The code as written answers 500 instead (under Findings).
- TicketQuery.ListTickets: a sort on an array field (`attachments`, `comments`, `upvotes`, `downvotes`, `tags`), on the version key `__v` or on a dotted path gives every ticket the empty key, so all tie. MongoDB orders arrays by their least or greatest element and `__v` as a number; that order is not modelled. A name the schema does not have ties every ticket in MongoDB as well.
- TicketQuery.ListTickets: among tickets with equal keys the model fixes one order, where MongoDB promises none.
- TicketQuery.EveryMatchIsListed: holds under the model's one fixed order among tickets with equal sort keys. MongoDB fixes none, so with ties separate page requests may repeat or skip a ticket. `TicketQuery.RankedIsForced` shows that the order, and so every page, is forced when no two matching tickets share a key.
- UpgradeRoutes.ReviewUpgradeRequest: the status is always a string. A body without `status` (which unsets the field) is not modelled.
- CategoryRoutes.UpdateCategory: an absent field leaves the stored value, as Mongoose drops undefined keys from an update. JSON values that are not strings (a numeric name, say) are not modelled on any route.
- AuthRoutes.Register: the validators' e-mail test is a parameter that refuses "". E-mail addresses are compared exactly, with no normalisation.
- The `catch` blocks for database failures are left out: the store never fails.
- The front-end and the separate Python service are outside the backend core.

## Behaviour worth knowing

- A second upgrade request while one is pending gives 400 (backend/routes/upgradeRequests.js:12-19).
- A reviewed request can be reviewed again, back to "pending" included (backend/routes/upgradeRequests.js:97-102; `UpgradeRoutes.RejectAfterApproveKeepsRole`, `UpgradeRoutes.ReviewCanReopen`).
- The upgrade path is checked against the `currentRole` in the body (backend/routes/upgradeRequests.js:29-39; `UpgradeRoutes.CreateIgnoresStoredRole`).
- Registration gives the account the body's role, admin included (backend/routes/auth.js:26; `AuthRoutes.RegisterTakesRoleFromBody`).
- A comment is internal exactly when the body's `isInternal` is "true", whoever writes it (backend/routes/tickets.js:236).
- A new ticket stores the category id from the body as given (backend/routes/tickets.js:44, :70).
- A new ticket's number is a fresh ObjectId (backend/models/Ticket.js:34-39). The "QD-" formatter runs only for a document without a number (backend/models/Ticket.js:104-110).
- Deactivated users authenticate and log in like active ones (backend/middleware/auth.js:13-20, backend/routes/auth.js:51-55).

## Findings

| source | as written | input that shows it | evidently intended | confidence | as-written member | corrected member |
|---|---|---|---|---|---|---|
| backend/routes/tickets.js:64 | the create handler calls `axios.post`, but `axios` is never imported, so the call throws and the catch answers 500 after validation | any valid create, e.g. a subject of five and a description of ten 'x' characters, category "507f1f77bcf86cd799439011" | a valid ticket is saved and returned with 201 | high, not executed | TicketRoutes.CreateTicketAsWritten (with TicketRoutes.CreateAsWrittenLosesTickets, TicketRoutes.CreateAsWrittenExample) | TicketRoutes.CreateTicket |
| backend/routes/tickets.js:113-118 | the search's `$or` puts `$regex` on `ticketNumber`, an ObjectId path (backend/models/Ticket.js:34-39); Mongoose refuses `$regex` when casting a query on an ObjectId path, so `Ticket.find` throws and the catch answers 500 | any list request with a non-empty `search`, e.g. `search=printer` | the search finds tickets whose subject, description or number contains the text | plausible, not executed | TicketQuery.ListTicketsAsWritten (with TicketQuery.SearchAsWrittenLosesMatches) | TicketQuery.ListTickets |

=== FILE: auth_middleware.dfy ===
/** The two middlewares of backend/middleware/auth.js: `auth`, which turns the
    `jwt` cookie into the requesting user or answers 401, and
    `authorize(...roles)`, which lets a handler run only for the listed roles
    and answers 403 otherwise. Token verification is the parameter `verify`:
    it yields the user id a valid token carries and `None` for a token that
    fails verification (bad signature, expired, malformed). */
module AuthMiddleware {
  import opened Common
  import opened Roles
  import opened Database

  /** `auth`: the user a request acts as, or a 401. An absent or empty cookie,
      a token that does not verify, and a token whose id names no user are all
      rejected; nothing else is checked (in particular not `isActive`). */
  function Authenticate(st: Store, cookie: Option<string>, verify: string -> Option<Id>): (r: Response<User>)
    ensures r.Fail? ==> r.code == Unauthorized
    ensures r.Ok? <==>
              && Present(cookie)
              && verify(cookie.value).Some?
              && UserIndex(st, verify(cookie.value).value).Some?
    ensures r.Ok? ==> r.body in st.users && r.body.id == verify(cookie.value).value
  {
    if !Present(cookie) then Fail(Unauthorized, "No token, authorization denied")
    else
      match verify(cookie.value)
      case None => Fail(Unauthorized, "Token is not valid")
      case Some(uid) =>
        match UserIndex(st, uid)
        case None => Fail(Unauthorized, "Token is not valid")
        case Some(i) => Ok(StatusOk, st.users[i])
  }

  /** A route behind `auth`: the handler runs, as the authenticated user, only
      when authentication succeeds; otherwise the answer is 401 and the store
      is untouched. */
  function WithAuth<T>(st: Store, cookie: Option<string>, verify: string -> Option<Id>,
                       handler: User -> Reply<T>): (r: Reply<T>)
    ensures Authenticate(st, cookie, verify).Fail? ==>
              r.response.Fail? && r.response.code == Unauthorized && r.store == st
    ensures Authenticate(st, cookie, verify).Ok? ==>
              r == handler(Authenticate(st, cookie, verify).body)
  {
    match Authenticate(st, cookie, verify)
    case Fail(code, message) => Reply(Fail(code, message), st)
    case Ok(_, me) => handler(me)
  }

  /** `authorize(...roles)`: the handler runs iff the user's role is listed;
      otherwise the answer is 403 and the store is untouched. */
  function Authorize<T>(roles: seq<Role>, me: User, st: Store, next: Store -> Reply<T>): (r: Reply<T>)
    ensures me.role !in roles ==> r.response.Fail? && r.response.code == Forbidden && r.store == st
    ensures me.role in roles ==> r == next(st)
  {
    if me.role in roles then next(st) else Reply(Fail(Forbidden, "Access denied"), st)
  }

  /** Deactivating an account does not end its sessions: `auth` accepts a
      valid token of an inactive user. */
  lemma InactiveUsersStillAuthenticate(st: Store, cookie: Option<string>,
                                       verify: string -> Option<Id>, i: nat)
    requires DistinctKeys(st.users, UserId)
    requires i < |st.users| && !st.users[i].isActive
    requires Present(cookie) && verify(cookie.value) == Some(st.users[i].id)
    ensures Authenticate(st, cookie, verify) == Ok(StatusOk, st.users[i])
  {
    IndexOfIsUnique(st.users, UserId, i);
  }
}

=== FILE: auth_routes.dfy ===
/** Registration and login (backend/routes/auth.js). Both run the same
    validators; on success the answer exposes only the user's id, name,
    e-mail and role.

    Library calls are parameters: `isEmail` is the validator's e-mail test
    (which refuses ""), `hash` the password hashing the User model applies
    on save, and `matches(stored, given)` its `comparePassword`. The User
    model itself is not part of this model; its role enum is taken to be the
    same three roles. Issuing the `jwt` cookie is left out. */
module AuthRoutes {
  import opened Common
  import opened Roles
  import opened Database
  import UserRoutes

  /** The JSON body of register and login. */
  datatype Credentials = Credentials(
    name: Option<string>,
    email: Option<string>,
    password: Option<string>,
    role: Option<string>)

  /** The `user` object of a success response. */
  datatype Session = Session(id: Id, name: Option<string>, email: string, role: Role)

  function SessionOf(u: User): Session {
    Session(u.id, u.name, u.email, u.role)
  }

  /** The shared validators: a valid e-mail, a password of at least 6
      characters, and a name of at least 2 when one is given (as `isLength`
      counts). */
  predicate CredentialsValid(c: Credentials, isEmail: string -> bool) {
    && isEmail(OrEmpty(c.email))
    && ValidatorLength(OrEmpty(c.password)) >= 6
    && (c.name.Some? ==> ValidatorLength(c.name.value) >= 2)
  }

  /** `User.findOne({ email })`. */
  function EmailIndex(st: Store, email: string): Option<nat> {
    IndexOf(st.users, UserEmail, email)
  }

  /** `role || "user"`, checked against the User model's role enum on save. */
  function RoleChoice(role: Option<string>): Option<Role> {
    ParseRole(OrDefault(role, "user"))
  }

  ghost predicate UserIdFresh(st: Store, id: Id) {
    forall k :: 0 <= k < |st.users| ==> st.users[k].id != id
  }

  /** POST /register: invalid fields give 400, a known e-mail gives 400, a
      role outside the enum fails the save (500); otherwise one active user
      is appended with the hashed password and the chosen role, by default
      "user". */
  function Register(st: Store, c: Credentials, isEmail: string -> bool, hash: string -> string,
                    id: Id, now: nat): (r: Reply<Session>)
    requires !isEmail("")
    requires UserIdFresh(st, id)
    ensures r.response.Fail? ==> r.store == st
    ensures !CredentialsValid(c, isEmail) ==> r.response.Fail? && r.response.code == BadRequest
    ensures CredentialsValid(c, isEmail) && EmailIndex(st, c.email.value).Some? ==>
              r.response.Fail? && r.response.code == BadRequest
    ensures CredentialsValid(c, isEmail) && EmailIndex(st, c.email.value).None? && RoleChoice(c.role).None? ==>
              r.response.Fail? && r.response.code == ServerError
    ensures r.response.Ok? <==>
              CredentialsValid(c, isEmail) && EmailIndex(st, c.email.value).None? && RoleChoice(c.role).Some?
    ensures r.response.Ok? ==>
              && r.response.code == StatusCreated
              && |r.store.users| == |st.users| + 1
              && var u := r.store.users[|st.users|];
              && r.store == st.(users := st.users + [u])
              && u.id == id && u.name == c.name && u.email == c.email.value
              && u.password == hash(c.password.value) && u.isActive
              && RoleText(u.role) == OrDefault(c.role, "user")
              && r.response.body == SessionOf(u)
    ensures Valid(st) ==> Valid(r.store)
  {
    if !CredentialsValid(c, isEmail) then Reply(Fail(BadRequest, "Validation failed"), st)
    else if EmailIndex(st, c.email.value).Some? then Reply(Fail(BadRequest, "User already exists"), st)
    else
      match RoleChoice(c.role)
      case None => Reply(Fail(ServerError, "Server error"), st)
      case Some(role) =>
        var u := User(id, c.name, c.email.value, hash(c.password.value), role, true, now);
        var st' := st.(users := st.users + [u]);
        assert Valid(st) ==> Valid(st') by {
          if Valid(st) {
            DistinctKeysAppend(st.users, UserId, u);
            DistinctKeysAppend(st.users, UserEmail, u);
          }
        }
        Reply(Ok(StatusCreated, SessionOf(u)), st')
  }

  /** POST /login: invalid fields give 400; an unknown e-mail and a wrong
      password both give the same 400 "Invalid credentials"; otherwise the
      user's session. Nothing is written, and `isActive` is not looked at. */
  function Login(st: Store, c: Credentials, isEmail: string -> bool, matches: (string, string) -> bool): (r: Reply<Session>)
    requires !isEmail("")
    ensures r.store == st
    ensures !CredentialsValid(c, isEmail) ==> r.response.Fail? && r.response.code == BadRequest
    ensures CredentialsValid(c, isEmail) &&
            (EmailIndex(st, c.email.value).None? ||
             !matches(st.users[EmailIndex(st, c.email.value).value].password, c.password.value)) ==>
              r.response == Fail(BadRequest, "Invalid credentials")
    ensures r.response.Ok? <==>
              && CredentialsValid(c, isEmail)
              && EmailIndex(st, c.email.value).Some?
              && matches(st.users[EmailIndex(st, c.email.value).value].password, c.password.value)
    ensures r.response.Ok? ==>
              && r.response.code == StatusOk
              && r.response.body == SessionOf(st.users[EmailIndex(st, c.email.value).value])
  {
    if !CredentialsValid(c, isEmail) then Reply(Fail(BadRequest, "Validation failed"), st)
    else
      match EmailIndex(st, c.email.value)
      case None => Reply(Fail(BadRequest, "Invalid credentials"), st)
      case Some(i) =>
        if !matches(st.users[i].password, c.password.value) then Reply(Fail(BadRequest, "Invalid credentials"), st)
        else Reply(Ok(StatusOk, SessionOf(st.users[i])), st)
  }

  /** An unknown e-mail and a wrong password cannot be told apart. */
  lemma LoginFailuresLookAlike(st: Store, unknown: Credentials, wrong: Credentials,
                               isEmail: string -> bool, matches: (string, string) -> bool)
    requires !isEmail("")
    requires CredentialsValid(unknown, isEmail) && EmailIndex(st, unknown.email.value).None?
    requires CredentialsValid(wrong, isEmail) && EmailIndex(st, wrong.email.value).Some?
    requires !matches(st.users[EmailIndex(st, wrong.email.value).value].password, wrong.password.value)
    ensures Login(st, unknown, isEmail, matches) == Login(st, wrong, isEmail, matches)
  {
  }

  /** Registering and then logging in with the same credentials yields the
      session registration returned, provided `comparePassword` accepts the
      stored hash of the password. */
  lemma RegisterThenLogin(st: Store, c: Credentials, isEmail: string -> bool, hash: string -> string,
                          matches: (string, string) -> bool, id: Id, now: nat)
    requires !isEmail("") && UserIdFresh(st, id)
    requires Register(st, c, isEmail, hash, id, now).response.Ok?
    requires matches(hash(c.password.value), c.password.value)
    ensures var reg := Register(st, c, isEmail, hash, id, now);
            var login := Login(reg.store, c, isEmail, matches);
            login.response.Ok? && login.response.body == reg.response.body
  {
    var reg := Register(st, c, isEmail, hash, id, now);
    var u := reg.store.users[|st.users|];
    IndexOfAppended(st.users, UserEmail, u);
  }

  /** Without a role in the body the account is a plain user... */
  lemma RegisterDefaultsToUser(st: Store, c: Credentials, isEmail: string -> bool, hash: string -> string,
                               id: Id, now: nat)
    requires !isEmail("") && UserIdFresh(st, id) && !Present(c.role)
    requires CredentialsValid(c, isEmail) && EmailIndex(st, c.email.value).None?
    ensures var r := Register(st, c, isEmail, hash, id, now);
            r.response.Ok? && r.response.body.role == UserRole
  {
  }

  /** ... but the body may name any role, admin included. */
  lemma RegisterTakesRoleFromBody(st: Store, c: Credentials, isEmail: string -> bool, hash: string -> string,
                                  id: Id, now: nat, role: Role)
    requires !isEmail("") && UserIdFresh(st, id) && c.role == Some(RoleText(role))
    requires CredentialsValid(c, isEmail) && EmailIndex(st, c.email.value).None?
    ensures var r := Register(st, c, isEmail, hash, id, now);
            r.response.Ok? && r.response.body.role == role
  {
    ParseRoleText(role);
  }

  /** Deactivating an account does not stop it from logging in. */
  lemma DeactivatedUserCanLogIn(st: Store, admin: User, id: Id, c: Credentials,
                                isEmail: string -> bool, matches: (string, string) -> bool)
    requires !isEmail("") && admin.role == AdminRole
    ensures var after := UserRoutes.DeactivateUser(st, admin, id).store;
            Login(after, c, isEmail, matches).response == Login(st, c, isEmail, matches).response
  {
    var r := UserRoutes.DeactivateUser(st, admin, id);
    if r.response.Ok? && CredentialsValid(c, isEmail) {
      var u := UserIndex(st, id).value;
      IndexOfSameKeys(st.users, UserEmail, u, st.users[u].(isActive := false), c.email.value);
    }
  }
}

=== FILE: category_routes.dfy ===
/** The category routes of backend/routes/categories.js: a public list of the
    active categories, and admin-only create, update and soft delete.

    The Category model itself is not part of this model: saving a category is
    taken to succeed whenever the route gets that far. The new category's
    `_id` is the parameter `id`, assumed unused. */
module CategoryRoutes {
  import opened Common
  import opened Roles
  import opened Order
  import opened Database
  import opened AuthMiddleware

  // ---------------------------------------------------------------------------
  // List (GET /)

  function NameKey(c: Category): Key { TextKey(c.name) }

  /** The active categories of `s`, each as often as in `s`, order kept. */
  function ActiveCategories(s: seq<Category>): (r: seq<Category>)
    ensures forall x :: multiset(r)[x] == if x.isActive then multiset(s)[x] else 0
    ensures forall k :: 0 <= k < |r| ==> r[k].isActive
  {
    if |s| == 0 then []
    else
      assert s == [s[0]] + s[1..];
      (if s[0].isActive then [s[0]] else []) + ActiveCategories(s[1..])
  }

  /** No authentication: exactly the active categories, by name ascending. */
  function ListCategories(st: Store): (r: Reply<seq<Category>>)
    ensures r.store == st && r.response.Ok? && r.response.code == StatusOk
    ensures Sorted(r.response.body, NameKey, false)
    ensures forall x :: multiset(r.response.body)[x] == if x.isActive then multiset(st.categories)[x] else 0
  {
    Reply(Ok(StatusOk, Sort(ActiveCategories(st.categories), NameKey, false)), st)
  }

  // ---------------------------------------------------------------------------
  // Create (POST /)

  datatype CategoryForm = CategoryForm(name: Option<string>, description: Option<string>, color: Option<string>)

  const DefaultColor: string := "#007bff"

  /** The name validator: at least 2 characters after trimming, as `isLength`
      counts them. */
  predicate NameValid(name: Option<string>) {
    ValidatorLength(Trim(OrEmpty(name))) >= 2
  }

  /** `Category.findOne({ name })`: some category, active or not, has the name. */
  predicate NameTaken(st: Store, name: string) {
    exists k :: 0 <= k < |st.categories| && st.categories[k].name == name
  }

  function CategoryName(c: Category): string { c.name }

  ghost predicate CategoryIdFresh(st: Store, id: Id) {
    forall k :: 0 <= k < |st.categories| ==> st.categories[k].id != id
  }

  function CreateCategoryAllowed(st: Store, me: User, f: CategoryForm, id: Id, now: nat): Reply<Category> {
    var name := Trim(OrEmpty(f.name));
    if !NameValid(f.name) then Reply(Fail(BadRequest, "Category name must be at least 2 characters"), st)
    else if NameTaken(st, name) then Reply(Fail(BadRequest, "Category already exists"), st)
    else
      var c := Category(id, name, f.description, OrDefault(f.color, DefaultColor), me.id, true, now);
      Reply(Ok(StatusCreated, c), st.(categories := st.categories + [c]))
  }

  /** Admins only (403). A trimmed name under 2 characters gives 400, and so
      does a name some category already has, even an inactive one. Otherwise
      one active category is appended, created by the caller, with the
      trimmed name and the default color when none is given. */
  function CreateCategory(st: Store, me: User, f: CategoryForm, id: Id, now: nat): (r: Reply<Category>)
    requires CategoryIdFresh(st, id)
    ensures r.response.Fail? ==> r.store == st
    ensures me.role != AdminRole ==> r.response.Fail? && r.response.code == Forbidden
    ensures me.role == AdminRole && !NameValid(f.name) ==> r.response.Fail? && r.response.code == BadRequest
    ensures me.role == AdminRole && NameTaken(st, Trim(OrEmpty(f.name))) ==>
              r.response.Fail? && r.response.code == BadRequest
    ensures r.response.Ok? <==> me.role == AdminRole && NameValid(f.name) && !NameTaken(st, Trim(OrEmpty(f.name)))
    ensures r.response.Ok? ==>
              var c := r.response.body;
              && r.response.code == StatusCreated
              && r.store == st.(categories := st.categories + [c])
              && c.id == id && c.name == Trim(OrEmpty(f.name)) && c.description == f.description
              && (Present(f.color) ==> c.color == f.color.value)
              && (!Present(f.color) ==> c.color == DefaultColor)
              && c.createdBy == me.id && c.isActive
    ensures Valid(st) ==> Valid(r.store)
    ensures DistinctKeys(st.categories, CategoryName) ==> DistinctKeys(r.store.categories, CategoryName)
  {
    var r := Authorize([AdminRole], me, st, s => CreateCategoryAllowed(s, me, f, id, now));
    assert r.response.Ok? ==> DistinctKeys(st.categories, CategoryName) ==> DistinctKeys(r.store.categories, CategoryName) by {
      if r.response.Ok? && DistinctKeys(st.categories, CategoryName) {
        DistinctKeysAppend(st.categories, CategoryName, r.response.body);
      }
    }
    assert Valid(st) ==> Valid(r.store) by {
      if Valid(st) && r.response.Ok? {
        DistinctKeysAppend(st.categories, CategoryId, r.response.body);
      }
    }
    r
  }

  // ---------------------------------------------------------------------------
  // Update (PUT /:id)

  /** The JSON body of an update; absent fields leave the stored value. */
  datatype CategoryUpdate = CategoryUpdate(
    name: Option<string>,
    description: Option<string>,
    color: Option<string>,
    isActive: Option<bool>)

  /** `findByIdAndUpdate(id, { name, description, color, isActive })`, with
      the name already trimmed by the validator. */
  function Patched(c: Category, u: CategoryUpdate): Category {
    c.(name := Trim(OrEmpty(u.name)),
       description := if u.description.Some? then u.description else c.description,
       color := u.color.GetOr(c.color),
       isActive := u.isActive.GetOr(c.isActive))
  }

  function UpdateCategoryAllowed(st: Store, id: Id, u: CategoryUpdate): Reply<Category> {
    if !NameValid(u.name) then Reply(Fail(BadRequest, "Category name must be at least 2 characters"), st)
    else
      match CategoryIndex(st, id)
      case None => Reply(Fail(NotFound, "Category not found"), st)
      case Some(i) =>
        var c := Patched(st.categories[i], u);
        Reply(Ok(StatusOk, c), st.(categories := st.categories[i := c]))
  }

  /** Admins only (403); a short name gives 400 before the lookup, an unknown
      id 404. The given fields replace the stored ones, the others stay; the
      name is not checked against the other categories. */
  function UpdateCategory(st: Store, me: User, id: Id, u: CategoryUpdate): (r: Reply<Category>)
    ensures r.response.Fail? ==> r.store == st
    ensures me.role != AdminRole ==> r.response.Fail? && r.response.code == Forbidden
    ensures me.role == AdminRole && !NameValid(u.name) ==> r.response.Fail? && r.response.code == BadRequest
    ensures me.role == AdminRole && NameValid(u.name) && CategoryIndex(st, id).None? ==>
              r.response.Fail? && r.response.code == NotFound
    ensures r.response.Ok? <==> me.role == AdminRole && NameValid(u.name) && CategoryIndex(st, id).Some?
    ensures r.response.Ok? ==>
              var i := CategoryIndex(st, id).value;
              var before := st.categories[i];
              var c := r.response.body;
              && r.response.code == StatusOk
              && r.store == st.(categories := st.categories[i := c])
              && c.id == before.id && c.createdBy == before.createdBy && c.createdAt == before.createdAt
              && c.name == Trim(OrEmpty(u.name))
              && c.description == (if u.description.Some? then u.description else before.description)
              && (u.color.Some? ==> c.color == u.color.value) && (u.color.None? ==> c.color == before.color)
              && (u.isActive.Some? ==> c.isActive == u.isActive.value) && (u.isActive.None? ==> c.isActive == before.isActive)
    ensures Valid(st) ==> Valid(r.store)
  {
    var r := Authorize([AdminRole], me, st, s => UpdateCategoryAllowed(s, id, u));
    assert Valid(st) ==> Valid(r.store) by {
      if Valid(st) && r.response.Ok? {
        DistinctKeysReplace(st.categories, CategoryId, CategoryIndex(st, id).value, r.response.body);
      }
    }
    r
  }

  /** Update can give a category the name of another one, which create would
      have refused. */
  lemma UpdateCanDuplicateName(admin: User, a: Category, b: Category)
    requires admin.role == AdminRole && a.id != b.id && a.name != b.name
    requires ValidatorLength(b.name) >= 2 && !IsSpace(b.name[0]) && !IsSpace(b.name[|b.name| - 1])
    ensures var st := Store([], [], [a, b], []);
            var r := UpdateCategory(st, admin, a.id, CategoryUpdate(Some(b.name), None, None, None));
            && DistinctKeys(st.categories, CategoryName)
            && r.response.Ok?
            && !DistinctKeys(r.store.categories, CategoryName)
  {
    var st := Store([], [], [a, b], []);
    assert CategoryIndex(st, a.id) == Some(0);
    var c := RenameByUpdate(st, admin, a.id, b.name);
    assert st.categories[0 := c] == [c, b];
    assert DistinctKeys([a, b], CategoryName) by {
      forall i, j | 0 <= i < j < 2 ensures CategoryName([a, b][i]) != CategoryName([a, b][j]) {
        assert i == 0 && j == 1;
      }
    }
    assert !DistinctKeys([c, b], CategoryName) by {
      assert CategoryName([c, b][0]) == CategoryName([c, b][1]);
    }
  }

  /** An admin's update that names only a valid, already trimmed name renames
      the category with the id to exactly that name. */
  lemma RenameByUpdate(st: Store, admin: User, id: Id, name: string) returns (c: Category)
    requires admin.role == AdminRole && CategoryIndex(st, id).Some?
    requires ValidatorLength(name) >= 2 && !IsSpace(name[0]) && !IsSpace(name[|name| - 1])
    ensures var r := UpdateCategory(st, admin, id, CategoryUpdate(Some(name), None, None, None));
            && r.response.Ok? && c.name == name
            && r.store.categories == st.categories[CategoryIndex(st, id).value := c]
  {
    TrimKeeps(name);
    c := UpdateCategory(st, admin, id, CategoryUpdate(Some(name), None, None, None)).response.body;
  }

  // ---------------------------------------------------------------------------
  // Delete (DELETE /:id)

  function DeleteCategoryAllowed(st: Store, id: Id): Reply<string> {
    match CategoryIndex(st, id)
    case None => Reply(Fail(NotFound, "Category not found"), st)
    case Some(i) =>
      Reply(Ok(StatusOk, "Category deleted successfully"),
            st.(categories := st.categories[i := st.categories[i].(isActive := false)]))
  }

  /** Admins only (403), unknown id 404; otherwise the category is only
      marked inactive, nothing is removed. */
  function DeleteCategory(st: Store, me: User, id: Id): (r: Reply<string>)
    ensures r.response.Fail? ==> r.store == st
    ensures me.role != AdminRole ==> r.response.Fail? && r.response.code == Forbidden
    ensures me.role == AdminRole && CategoryIndex(st, id).None? ==> r.response.Fail? && r.response.code == NotFound
    ensures r.response.Ok? <==> me.role == AdminRole && CategoryIndex(st, id).Some?
    ensures r.response.Ok? ==>
              var i := CategoryIndex(st, id).value;
              && r.response.code == StatusOk
              && r.store == st.(categories := st.categories[i := st.categories[i].(isActive := false)])
    ensures Valid(st) ==> Valid(r.store)
  {
    var r := Authorize([AdminRole], me, st, s => DeleteCategoryAllowed(s, id));
    assert Valid(st) ==> Valid(r.store) by {
      if Valid(st) && r.response.Ok? {
        var i := CategoryIndex(st, id).value;
        DistinctKeysReplace(st.categories, CategoryId, i, st.categories[i].(isActive := false));
      }
    }
    r
  }

  /** Deleting twice succeeds twice and leaves what deleting once left. */
  lemma DeleteIsIdempotent(st: Store, me: User, id: Id)
    requires me.role == AdminRole && CategoryIndex(st, id).Some?
    ensures var once := DeleteCategory(st, me, id);
            var twice := DeleteCategory(once.store, me, id);
            once.response.Ok? && twice.response.Ok? && twice.store == once.store
  {
    var once := DeleteCategory(st, me, id);
    var i := CategoryIndex(st, id).value;
    IndexOfAfterReplace(st.categories, CategoryId, id, st.categories[i].(isActive := false));
    assert once.store.categories[i := once.store.categories[i].(isActive := false)] == once.store.categories;
  }

  /** A deleted category is no longer listed. */
  lemma DeletedCategoryIsNotListed(st: Store, me: User, id: Id)
    requires Valid(st) && me.role == AdminRole
    ensures var after := DeleteCategory(st, me, id).store;
            forall x :: x in ListCategories(after).response.body ==> x.id != id
  {
    var after := DeleteCategory(st, me, id).store;
    forall x | x in ListCategories(after).response.body ensures x.id != id {
      assert multiset(ListCategories(after).response.body)[x] > 0;
      assert x.isActive && x in after.categories;
      var k :| 0 <= k < |after.categories| && after.categories[k] == x;
      if CategoryIndex(st, id).Some? {
        var i := CategoryIndex(st, id).value;
        if k != i {
          assert st.categories[k] == x && st.categories[i].id == id;
        }
      }
    }
  }
}

=== FILE: common.dfy ===
/** Shared vocabulary of the helpdesk API model: identifiers, optional values,
    HTTP-style responses, lookup by id, and the string helpers that the
    request validators and the ticket search rely on. */
module Common {

  /** Document identifiers (MongoDB ObjectIds) in their string form. */
  type Id = string

  datatype Option<+T> = None | Some(value: T) {
    /** The value, or `default` when absent. */
    function GetOr(default: T): T {
      match this
      case Some(v) => v
      case None => default
    }
  }

  /** The outcome of a route: a success status with a JSON body, or an error
      status with the message the route sends. */
  datatype Response<+T> = Ok(code: nat, body: T) | Fail(code: nat, message: string)

  const StatusOk: nat := 200
  const StatusCreated: nat := 201
  const BadRequest: nat := 400
  const Unauthorized: nat := 401
  const Forbidden: nat := 403
  const NotFound: nat := 404
  const ServerError: nat := 500

  /** What a validator sees for a body field: an absent field reads as "". */
  function OrEmpty(s: Option<string>): string {
    s.GetOr("")
  }

  /** JavaScript `s || d` on an optional string: absent and "" are falsy. */
  function OrDefault(s: Option<string>, d: string): (r: string)
    ensures r == d || (s.Some? && r == s.value)
    ensures r == "" ==> d == ""
  {
    if s.Some? && s.value != "" then s.value else d
  }

  /** JavaScript truthiness of an optional string: present and non-empty.
      Mongoose's `required` on a string path asks the same. */
  predicate Present(s: Option<string>) {
    s.Some? && s.value != ""
  }

  // ---------------------------------------------------------------------------
  // Lookup by key (`findById`, `findOne({ field })`)

  /** The position of the first document of `s` whose key is `k`, if any. */
  function IndexOf<T, K(==)>(s: seq<T>, keyOf: T -> K, k: K): (r: Option<nat>)
    ensures r.Some? ==> r.value < |s| && keyOf(s[r.value]) == k
    ensures r.Some? ==> forall j :: 0 <= j < r.value ==> keyOf(s[j]) != k
    ensures r.None? <==> forall i :: 0 <= i < |s| ==> keyOf(s[i]) != k
  {
    if |s| == 0 then None
    else if keyOf(s[0]) == k then Some(0)
    else
      match IndexOf(s[1..], keyOf, k)
      case None => None
      case Some(j) => Some(j + 1)
  }

  /** No two documents of `s` share a key. */
  ghost predicate DistinctKeys<T, K>(s: seq<T>, keyOf: T -> K) {
    forall i, j :: 0 <= i < j < |s| ==> keyOf(s[i]) != keyOf(s[j])
  }

  lemma {:induction false} IndexOfIsUnique<T, K>(s: seq<T>, keyOf: T -> K, i: nat)
    requires DistinctKeys(s, keyOf)
    requires i < |s|
    ensures IndexOf(s, keyOf, keyOf(s[i])) == Some(i)
  {
    if i > 0 {
      assert keyOf(s[0]) != keyOf(s[i]);
      assert DistinctKeys(s[1..], keyOf) by {
        forall a, b | 0 <= a < b < |s| - 1 ensures keyOf(s[1..][a]) != keyOf(s[1..][b]) {
          assert keyOf(s[a + 1]) != keyOf(s[b + 1]);
        }
      }
      IndexOfIsUnique(s[1..], keyOf, i - 1);
    }
  }

  /** Replacing a document by one with the same key keeps it findable at the
      same place. */
  lemma IndexOfAfterReplace<T, K>(s: seq<T>, keyOf: T -> K, k: K, x: T)
    requires IndexOf(s, keyOf, k).Some?
    requires keyOf(x) == k
    ensures IndexOf(s[IndexOf(s, keyOf, k).value := x], keyOf, k) == IndexOf(s, keyOf, k)
  {
    var i := IndexOf(s, keyOf, k).value;
    assert keyOf(s[i := x][i]) == k;
  }

  /** Replacing a document by one with the same key changes no lookup by
      that key. */
  lemma IndexOfSameKeys<T, K>(s: seq<T>, keyOf: T -> K, i: nat, x: T, k: K)
    requires i < |s| && keyOf(x) == keyOf(s[i])
    ensures IndexOf(s[i := x], keyOf, k) == IndexOf(s, keyOf, k)
  {
    assert forall j :: 0 <= j < |s| ==> keyOf(s[i := x][j]) == keyOf(s[j]);
  }

  /** Appending a document whose key no other has makes it the one found by
      that key. */
  lemma IndexOfAppended<T, K>(s: seq<T>, keyOf: T -> K, x: T)
    requires IndexOf(s, keyOf, keyOf(x)).None?
    ensures IndexOf(s + [x], keyOf, keyOf(x)) == Some(|s|)
  {
    assert (s + [x])[|s|] == x;
    assert forall j :: 0 <= j < |s| ==> (s + [x])[j] == s[j];
  }

  lemma DistinctKeysReplace<T, K>(s: seq<T>, keyOf: T -> K, i: nat, x: T)
    requires DistinctKeys(s, keyOf) && i < |s| && keyOf(x) == keyOf(s[i])
    ensures DistinctKeys(s[i := x], keyOf)
  {
  }

  lemma DistinctKeysAppend<T, K>(s: seq<T>, keyOf: T -> K, x: T)
    requires DistinctKeys(s, keyOf)
    requires forall i :: 0 <= i < |s| ==> keyOf(s[i]) != keyOf(x)
    ensures DistinctKeys(s + [x], keyOf)
  {
  }

  /** With distinct keys no element occurs twice. */
  lemma {:induction false} DistinctKeysOnce<T, K>(s: seq<T>, keyOf: T -> K, x: T)
    requires DistinctKeys(s, keyOf)
    ensures multiset(s)[x] <= 1
    decreases |s|
  {
    if |s| > 0 {
      var rest := s[1..];
      forall i, j | 0 <= i < j < |rest| ensures keyOf(rest[i]) != keyOf(rest[j]) {
        assert rest[i] == s[i + 1] && rest[j] == s[j + 1];
      }
      DistinctKeysOnce(rest, keyOf, x);
      assert s == [s[0]] + rest;
      forall k | 0 <= k < |rest| ensures rest[k] != s[0] {
        assert rest[k] == s[k + 1];
      }
      assert s[0] !in rest;
    }
  }

  /** With distinct keys, two elements of `s` with the same key are one. */
  lemma DistinctKeysSame<T, K>(s: seq<T>, keyOf: T -> K, a: T, b: T)
    requires DistinctKeys(s, keyOf) && a in s && b in s && keyOf(a) == keyOf(b)
    ensures a == b
  {
    var i :| 0 <= i < |s| && s[i] == a;
    var j :| 0 <= j < |s| && s[j] == b;
    assert !(i < j) && !(j < i);
  }

  /** An element at two positions occurs at least twice. */
  lemma RepeatedTwice<T>(s: seq<T>, i: nat, j: nat)
    requires i < j < |s| && s[i] == s[j]
    ensures multiset(s)[s[i]] >= 2
  {
    assert s == s[..j] + s[j..];
    assert s[..j][i] == s[i] && s[j..][0] == s[i];
  }

  // ---------------------------------------------------------------------------
  // Whitespace and trimming (express-validator `trim()`, JavaScript `\s`)

  /** The characters JavaScript's `\s` class matches. */
  predicate IsSpace(c: char) {
    || c == ' ' || c == '\t' || c == '\n' || c == '\r' || c == '\U{B}' || c == '\U{C}'
    || c == '\U{A0}' || c == '\U{1680}' || ('\U{2000}' <= c <= '\U{200A}')
    || c == '\U{2028}' || c == '\U{2029}' || c == '\U{202F}' || c == '\U{205F}'
    || c == '\U{3000}' || c == '\U{FEFF}'
  }

  function TrimStart(s: string): (r: string)
    ensures |r| <= |s| && r == s[|s| - |r|..]
    ensures |r| > 0 ==> !IsSpace(r[0])
    ensures forall i :: 0 <= i < |s| - |r| ==> IsSpace(s[i])
  {
    if |s| > 0 && IsSpace(s[0]) then TrimStart(s[1..]) else s
  }

  function TrimEnd(s: string): (r: string)
    ensures |r| <= |s| && r == s[..|r|]
    ensures |r| > 0 ==> !IsSpace(r[|r| - 1])
    ensures forall i :: |r| <= i < |s| ==> IsSpace(s[i])
  {
    if |s| > 0 && IsSpace(s[|s| - 1]) then TrimEnd(s[..|s| - 1]) else s
  }

  /** `s` without leading and trailing whitespace: a contiguous piece of `s`
      that neither starts nor ends with a space, and everything cut off is
      whitespace. */
  function Trim(s: string): (r: string)
    ensures exists a :: TrimmedAt(s, r, a)
    ensures |r| > 0 ==> !IsSpace(r[0]) && !IsSpace(r[|r| - 1])
  {
    var t := TrimStart(s);
    var r := TrimEnd(t);
    var a := |s| - |t|;
    assert r == s[a..a + |r|];
    assert TrimmedAt(s, r, a);
    r
  }

  /** `r` is `s[a..a + |r|]` and everything around it in `s` is whitespace. */
  ghost predicate TrimmedAt(s: string, r: string, a: int) {
    && 0 <= a && a + |r| <= |s| && r == s[a..a + |r|]
    && (forall i :: 0 <= i < a ==> IsSpace(s[i]))
    && (forall i :: a + |r| <= i < |s| ==> IsSpace(s[i]))
  }

  /** A string with no whitespace at either end is its own trim. */
  lemma TrimKeeps(s: string)
    requires |s| > 0 && !IsSpace(s[0]) && !IsSpace(s[|s| - 1])
    ensures Trim(s) == s
  {
    assert TrimStart(s) == s;
    assert TrimEnd(s) == s;
  }

  // ---------------------------------------------------------------------------
  // Length as the validators count it (validator.js `isLength`)

  /** The variation selectors U+FE0E and U+FE0F. */
  predicate IsVariationSelector(c: char) {
    c == '\U{FE0E}' || c == '\U{FE0F}'
  }

  /** The length `isLength` compares: the string's UTF-16 length less its
      surrogate pairs and less its variation selectors. A Dafny string is a
      sequence of code points, so that is the number of code points other
      than U+FE0E and U+FE0F (`ValidatorLengthCounts`). */
  function ValidatorLength(s: string): (n: nat)
    ensures n <= |s|
  {
    if |s| == 0 then 0
    else (if IsVariationSelector(s[0]) then 0 else 1) + ValidatorLength(s[1..])
  }

  /** `isLength` counts every code point except the two variation selectors. */
  lemma {:induction false} ValidatorLengthCounts(s: string)
    ensures ValidatorLength(s) == |s| - multiset(s)['\U{FE0E}'] - multiset(s)['\U{FE0F}']
    decreases |s|
  {
    if |s| > 0 {
      ValidatorLengthCounts(s[1..]);
      assert s == [s[0]] + s[1..];
      assert multiset(s) == multiset{s[0]} + multiset(s[1..]);
    }
  }

  /** Without variation selectors every code point counts. */
  lemma ValidatorLengthPlain(s: string)
    requires forall i :: 0 <= i < |s| ==> !IsVariationSelector(s[i])
    ensures ValidatorLength(s) == |s|
  {
    ValidatorLengthCounts(s);
    assert '\U{FE0E}' !in multiset(s) && '\U{FE0F}' !in multiset(s);
  }

  // ---------------------------------------------------------------------------
  // Case-insensitive substring search (`$regex` with the `i` option on a
  // pattern without metacharacters)

  function LowerChar(c: char): char {
    if 'A' <= c <= 'Z' then (c as int + 32) as char else c
  }

  function Lower(s: string): (r: string)
    ensures |r| == |s|
    ensures forall i :: 0 <= i < |s| ==> r[i] == LowerChar(s[i])
  {
    seq(|s|, i requires 0 <= i < |s| => LowerChar(s[i]))
  }

  /** `needle` occurs in `hay` at position `i`. */
  ghost predicate OccursAt(hay: string, needle: string, i: int) {
    0 <= i && i + |needle| <= |hay| && hay[i..i + |needle|] == needle
  }

  /** Substring test, scanning from the left. */
  function Contains(hay: string, needle: string): bool
    decreases |hay|
  {
    (|needle| <= |hay| && hay[..|needle|] == needle)
    || (|hay| > 0 && Contains(hay[1..], needle))
  }

  /** `Contains` agrees with the positional definition of "is a substring of". */
  lemma {:induction false} ContainsIff(hay: string, needle: string)
    ensures Contains(hay, needle) <==> exists i :: OccursAt(hay, needle, i)
    decreases |hay|
  {
    if |needle| <= |hay| && hay[..|needle|] == needle {
      assert OccursAt(hay, needle, 0);
    } else if |hay| > 0 {
      ContainsIff(hay[1..], needle);
      forall i | OccursAt(hay, needle, i) ensures OccursAt(hay[1..], needle, i - 1) {
        assert hay[1..][i - 1..i - 1 + |needle|] == hay[i..i + |needle|];
      }
      forall i | OccursAt(hay[1..], needle, i) ensures OccursAt(hay, needle, i + 1) {
        assert hay[i + 1..i + 1 + |needle|] == hay[1..][i..i + |needle|];
      }
    }
  }

  /** Case-insensitive substring match of `search` in `text`. */
  predicate MatchesCI(text: string, search: string) {
    Contains(Lower(text), Lower(search))
  }
}

=== FILE: database.dfy ===
/** The collections the routes read and write, and the result of a route:
    its response together with the collections afterwards. */
module Database {
  import opened Common
  import opened Roles
  import opened TicketModel
  import opened UpgradeRequestModel

  /** A user account. The name is optional at registration; `password` holds
      whatever the User model's save hook stores for the given password. */
  datatype User = User(
    id: Id,
    name: Option<string>,
    email: string,
    password: string,
    role: Role,
    isActive: bool,
    createdAt: nat)

  /** A user as the routes send it out: `.select("-password")`. */
  datatype Profile = Profile(
    id: Id,
    name: Option<string>,
    email: string,
    role: Role,
    isActive: bool,
    createdAt: nat)

  function ProfileOf(u: User): Profile {
    Profile(u.id, u.name, u.email, u.role, u.isActive, u.createdAt)
  }

  datatype Category = Category(
    id: Id,
    name: string,
    description: Option<string>,
    color: string,
    createdBy: Id,
    isActive: bool,
    createdAt: nat)

  /** The four collections, each in insertion (natural) order. */
  datatype Store = Store(
    users: seq<User>,
    tickets: seq<Ticket>,
    categories: seq<Category>,
    requests: seq<UpgradeRequest>)

  /** What a route answers and the collections after it ran. */
  datatype Reply<+T> = Reply(response: Response<T>, store: Store)

  function UserId(u: User): Id { u.id }
  function UserEmail(u: User): string { u.email }
  function TicketId(t: Ticket): Id { t.id }
  function TicketNumberOf(t: Ticket): string { t.ticketNumber }
  function CategoryId(c: Category): Id { c.id }
  function RequestId(r: UpgradeRequest): Id { r.id }

  function UserIndex(st: Store, id: Id): Option<nat> { IndexOf(st.users, UserId, id) }
  function TicketIndex(st: Store, id: Id): Option<nat> { IndexOf(st.tickets, TicketId, id) }
  function CategoryIndex(st: Store, id: Id): Option<nat> { IndexOf(st.categories, CategoryId, id) }
  function RequestIndex(st: Store, id: Id): Option<nat> { IndexOf(st.requests, RequestId, id) }

  /** What every route keeps true of the collections: identifiers, ticket
      numbers and e-mail addresses are unique, and every ticket's votes are
      exclusive. */
  ghost predicate Valid(st: Store) {
    && DistinctKeys(st.users, UserId)
    && DistinctKeys(st.users, UserEmail)
    && DistinctKeys(st.tickets, TicketId)
    && DistinctKeys(st.tickets, TicketNumberOf)
    && DistinctKeys(st.categories, CategoryId)
    && DistinctKeys(st.requests, RequestId)
    && forall i :: 0 <= i < |st.tickets| ==> VotesExclusive(st.tickets[i])
  }

  /** Rewriting one ticket keeps the collections valid as long as its id,
      its number and the exclusiveness of its votes are kept. */
  lemma ReplaceTicketKeepsValid(st: Store, i: nat, t: Ticket)
    requires i < |st.tickets|
    requires t.id == st.tickets[i].id && t.ticketNumber == st.tickets[i].ticketNumber
    ensures Valid(st) && VotesExclusive(t) ==> Valid(st.(tickets := st.tickets[i := t]))
  {
    if Valid(st) {
      DistinctKeysReplace(st.tickets, TicketId, i, t);
      DistinctKeysReplace(st.tickets, TicketNumberOf, i, t);
    }
  }

  /** Appending a ticket whose id and number are new keeps the collections
      valid as long as its votes are exclusive. */
  lemma AppendTicketKeepsValid(st: Store, t: Ticket)
    requires forall i :: 0 <= i < |st.tickets| ==> st.tickets[i].id != t.id
    requires forall i :: 0 <= i < |st.tickets| ==> st.tickets[i].ticketNumber != t.ticketNumber
    ensures Valid(st) && VotesExclusive(t) ==> Valid(st.(tickets := st.tickets + [t]))
  {
    if Valid(st) {
      DistinctKeysAppend(st.tickets, TicketId, t);
      DistinctKeysAppend(st.tickets, TicketNumberOf, t);
    }
  }
}

=== FILE: order.dfy ===
/** Ordering and paging of query results: the `.sort()`, `.skip()` and
    `.limit()` stages of a MongoDB query, and `Math.ceil(total / limit)`.

    A sort key is a sequence of integers compared lexicographically. Dates and
    numbers are one-element keys, strings are their code points (MongoDB
    compares strings by their UTF-8 bytes, which orders them by code point),
    and a missing field is the empty key, which sorts before every other value
    as BSON null does. */
module Order {

  type Key = seq<int>

  /** Lexicographic order on keys; a proper prefix comes first. */
  predicate KeyLe(a: Key, b: Key)
    decreases |a|
  {
    |a| == 0 || (|b| > 0 && (a[0] < b[0] || (a[0] == b[0] && KeyLe(a[1..], b[1..]))))
  }

  lemma {:induction false} KeyLeReflexive(a: Key)
    ensures KeyLe(a, a)
    decreases |a|
  {
    if |a| > 0 {
      KeyLeReflexive(a[1..]);
    }
  }

  lemma {:induction false} KeyLeTotal(a: Key, b: Key)
    ensures KeyLe(a, b) || KeyLe(b, a)
    decreases |a|
  {
    if |a| > 0 && |b| > 0 && a[0] == b[0] {
      KeyLeTotal(a[1..], b[1..]);
    }
  }

  lemma {:induction false} KeyLeTransitive(a: Key, b: Key, c: Key)
    requires KeyLe(a, b) && KeyLe(b, c)
    ensures KeyLe(a, c)
    decreases |a|
  {
    if |a| > 0 && a[0] == b[0] && b[0] == c[0] {
      KeyLeTransitive(a[1..], b[1..], c[1..]);
    }
  }

  /** The key of a string field. */
  function TextKey(s: string): (k: Key)
    ensures |k| == |s|
    ensures forall i :: 0 <= i < |s| ==> k[i] == s[i] as int
  {
    seq(|s|, i requires 0 <= i < |s| => s[i] as int)
  }

  /** Different strings have different keys. */
  lemma TextKeyInjective(a: string, b: string)
    requires TextKey(a) == TextKey(b)
    ensures a == b
  {
    assert forall k :: 0 <= k < |a| ==> TextKey(a)[k] == TextKey(b)[k];
  }

  /** `x` may come before `y` when sorting by `key`, ascending or descending. */
  predicate InOrder<T>(key: T -> Key, desc: bool, x: T, y: T) {
    if desc then KeyLe(key(y), key(x)) else KeyLe(key(x), key(y))
  }

  lemma InOrderTotal<T>(key: T -> Key, desc: bool, x: T, y: T)
    ensures InOrder(key, desc, x, y) || InOrder(key, desc, y, x)
  {
    KeyLeTotal(key(x), key(y));
  }

  lemma InOrderTransitive<T>(key: T -> Key, desc: bool, x: T, y: T, z: T)
    requires InOrder(key, desc, x, y) && InOrder(key, desc, y, z)
    ensures InOrder(key, desc, x, z)
  {
    if desc {
      KeyLeTransitive(key(z), key(y), key(x));
    } else {
      KeyLeTransitive(key(x), key(y), key(z));
    }
  }

  /** Every earlier element may come before every later one. */
  ghost predicate Sorted<T>(s: seq<T>, key: T -> Key, desc: bool) {
    forall i, j :: 0 <= i < j < |s| ==> InOrder(key, desc, s[i], s[j])
  }

  /** Prepending an element that may come before every element keeps a
      sequence sorted. */
  lemma SortedCons<T>(x: T, s: seq<T>, key: T -> Key, desc: bool)
    requires Sorted(s, key, desc)
    requires forall j :: 0 <= j < |s| ==> InOrder(key, desc, x, s[j])
    ensures Sorted([x] + s, key, desc)
  {
    forall i, j | 0 <= i < j < |s| + 1
      ensures InOrder(key, desc, ([x] + s)[i], ([x] + s)[j])
    {
      assert ([x] + s)[j] == s[j - 1];
      if i > 0 {
        assert ([x] + s)[i] == s[i - 1];
      }
    }
  }

  lemma BeforeHead<T>(x: T, s: seq<T>, key: T -> Key, desc: bool)
    requires Sorted(s, key, desc) && |s| > 0
    requires InOrder(key, desc, x, s[0])
    ensures forall j :: 0 <= j < |s| ==> InOrder(key, desc, x, s[j])
  {
    forall j | 0 < j < |s| ensures InOrder(key, desc, x, s[j]) {
      InOrderTransitive(key, desc, x, s[0], s[j]);
    }
  }

  lemma HeadBeforeRest<T>(x: T, s: seq<T>, rest: seq<T>, key: T -> Key, desc: bool)
    requires Sorted(s, key, desc) && |s| > 0
    requires !InOrder(key, desc, x, s[0])
    requires multiset(rest) == multiset(s[1..]) + multiset{x}
    ensures forall j :: 0 <= j < |rest| ==> InOrder(key, desc, s[0], rest[j])
  {
    forall j | 0 <= j < |rest| ensures InOrder(key, desc, s[0], rest[j]) {
      assert rest[j] in multiset(rest);
      if rest[j] == x {
        InOrderTotal(key, desc, x, s[0]);
      } else {
        assert rest[j] in multiset(s[1..]);
        var k :| 0 <= k < |s[1..]| && s[1..][k] == rest[j];
        assert s[k + 1] == rest[j];
      }
    }
  }

  /** Inserts `x` into the sorted `s`. */
  function Insert<T(==)>(x: T, s: seq<T>, key: T -> Key, desc: bool): (r: seq<T>)
    requires Sorted(s, key, desc)
    ensures Sorted(r, key, desc)
    ensures multiset(r) == multiset(s) + multiset{x}
  {
    if |s| == 0 then [x]
    else if InOrder(key, desc, x, s[0]) then
      BeforeHead(x, s, key, desc);
      SortedCons(x, s, key, desc);
      [x] + s
    else
      var rest := Insert(x, s[1..], key, desc);
      HeadBeforeRest(x, s, rest, key, desc);
      SortedCons(s[0], rest, key, desc);
      assert s == [s[0]] + s[1..];
      [s[0]] + rest
  }

  /** Insertion sort: a sorted permutation of `s`. No particular order among
      elements with equal keys is promised. */
  function Sort<T(==)>(s: seq<T>, key: T -> Key, desc: bool): (r: seq<T>)
    ensures Sorted(r, key, desc)
    ensures multiset(r) == multiset(s)
    ensures |r| == |s|
  {
    if |s| == 0 then []
    else
      assert s == [s[0]] + s[1..];
      Insert(s[0], Sort(s[1..], key, desc), key, desc)
  }

  lemma {:induction false} KeyLeAntisymmetric(a: Key, b: Key)
    requires KeyLe(a, b) && KeyLe(b, a)
    ensures a == b
    decreases |a|
  {
    if |a| > 0 {
      KeyLeAntisymmetric(a[1..], b[1..]);
      assert a == [a[0]] + a[1..] && b == [b[0]] + b[1..];
    }
  }

  /** The order among elements with equal keys is the only freedom a sort has:
      when no two positions share a key, two sorted arrangements of the same
      elements are the same sequence. */
  lemma {:induction false} SortedUnique<T>(a: seq<T>, b: seq<T>, key: T -> Key, desc: bool)
    requires Sorted(a, key, desc) && Sorted(b, key, desc)
    requires multiset(a) == multiset(b)
    requires forall i, j :: 0 <= i < j < |a| ==> key(a[i]) != key(a[j])
    ensures a == b
    decreases |a|
  {
    assert |a| == |multiset(a)| == |multiset(b)| == |b|;
    if |a| > 0 {
      HeadsAgree(a, b, key, desc);
      SameTails(a, b);
      SortedTail(a, key, desc);
      SortedTail(b, key, desc);
      forall i, j | 0 <= i < j < |a[1..]| ensures key(a[1..][i]) != key(a[1..][j]) {
        assert a[1..][i] == a[i + 1] && a[1..][j] == a[j + 1];
      }
      SortedUnique(a[1..], b[1..], key, desc);
      assert a == [a[0]] + a[1..] && b == [b[0]] + b[1..];
    }
  }

  lemma SortedTail<T>(s: seq<T>, key: T -> Key, desc: bool)
    requires Sorted(s, key, desc) && |s| > 0
    ensures Sorted(s[1..], key, desc)
  {
    forall i, j | 0 <= i < j < |s[1..]| ensures InOrder(key, desc, s[1..][i], s[1..][j]) {
      assert s[1..][i] == s[i + 1] && s[1..][j] == s[j + 1];
    }
  }

  lemma SameTails<T>(a: seq<T>, b: seq<T>)
    requires |a| > 0 && |b| > 0 && a[0] == b[0] && multiset(a) == multiset(b)
    ensures multiset(a[1..]) == multiset(b[1..])
  {
    assert a == [a[0]] + a[1..] && b == [b[0]] + b[1..];
    assert multiset(a[1..]) == multiset(a) - multiset{a[0]};
    assert multiset(b[1..]) == multiset(b) - multiset{b[0]};
  }

  /** Under the conditions of `SortedUnique`, the first elements agree. */
  lemma HeadsAgree<T>(a: seq<T>, b: seq<T>, key: T -> Key, desc: bool)
    requires Sorted(a, key, desc) && Sorted(b, key, desc)
    requires multiset(a) == multiset(b) && |a| > 0 && |b| > 0
    requires forall i, j :: 0 <= i < j < |a| ==> key(a[i]) != key(a[j])
    ensures a[0] == b[0]
  {
    assert b[0] in multiset(a) && a[0] in multiset(b);
    var k :| 0 <= k < |a| && a[k] == b[0];
    var j :| 0 <= j < |b| && b[j] == a[0];
    if j != 0 && k != 0 {
      assert InOrder(key, desc, a[0], a[k]) && InOrder(key, desc, b[0], b[j]);
      KeyLeAntisymmetric(key(a[0]), key(a[k]));
      assert false;
    }
  }

  // ---------------------------------------------------------------------------
  // Paging

  /** How many results `.skip((page - 1) * limit)` passes over. */
  function Skipped(page: nat, limit: nat): nat
    requires page >= 1
  {
    (page - 1) * limit
  }

  /** `.skip((page - 1) * limit).limit(limit)` over the ordered results `s`:
      the window of at most `limit` elements that starts after the skipped
      ones, empty when the skip passes the end. */
  function Page<T>(s: seq<T>, page: nat, limit: nat): (r: seq<T>)
    requires page >= 1 && limit >= 1
    ensures |r| <= limit
    ensures Skipped(page, limit) >= |s| ==> r == []
    ensures Skipped(page, limit) < |s| ==>
              |r| == if |s| - Skipped(page, limit) < limit then |s| - Skipped(page, limit) else limit
    ensures forall k :: 0 <= k < |r| ==> Skipped(page, limit) + k < |s| && r[k] == s[Skipped(page, limit) + k]
  {
    var skip := Skipped(page, limit);
    if skip >= |s| then []
    else if |s| - skip < limit then s[skip..]
    else s[skip..skip + limit]
  }

  /** `Math.ceil(n / d)`: the least number of `d`-sized pages holding `n` items. */
  function CeilDiv(n: nat, d: nat): (r: nat)
    requires d >= 1
    ensures r * d >= n
    ensures r > 0 ==> (r - 1) * d < n
  {
    var q := (n + d - 1) / d;
    assert q * d <= n + d - 1 < q * d + d;
    q
  }

  lemma MulMonotone(a: nat, b: nat, d: nat)
    requires a <= b
    ensures a * d <= b * d
  {
    assert b * d == a * d + (b - a) * d;
  }

  /** Every element of `s` is shown on exactly the page its position falls in,
      and that page is within `CeilDiv(|s|, limit)`. */
  lemma {:induction false} PageOf<T>(s: seq<T>, limit: nat, i: nat)
    requires limit >= 1 && i < |s|
    ensures 1 <= i / limit + 1 <= CeilDiv(|s|, limit)
    ensures i % limit < |Page(s, i / limit + 1, limit)|
    ensures Page(s, i / limit + 1, limit)[i % limit] == s[i]
  {
    var q := i / limit;
    var m := i % limit;
    assert q * limit + m == i && m < limit;
    PageWithinCount(|s|, limit, q, i);
    PageAt(s, limit, q, m);
  }

  /** A page whose first position is before the end is within the count. */
  lemma PageWithinCount(n: nat, limit: nat, q: nat, i: nat)
    requires limit >= 1 && q * limit <= i < n
    ensures q + 1 <= CeilDiv(n, limit)
  {
    if CeilDiv(n, limit) <= q {
      MulMonotone(CeilDiv(n, limit), q, limit);
    }
  }

  /** Offset `m` of page `q + 1` is position `q * limit + m`. */
  lemma PageAt<T>(s: seq<T>, limit: nat, q: nat, m: nat)
    requires limit >= 1 && m < limit && q * limit + m < |s|
    ensures m < |Page(s, q + 1, limit)| && Page(s, q + 1, limit)[m] == s[q * limit + m]
  {
    assert Skipped(q + 1, limit) == q * limit;
  }

  /** A page that starts past the last one is empty. */
  lemma {:induction false} PastLastPage<T>(s: seq<T>, page: nat, limit: nat)
    requires page >= 1 && limit >= 1
    requires page > CeilDiv(|s|, limit)
    ensures Page(s, page, limit) == []
  {
    MulMonotone(CeilDiv(|s|, limit), page - 1, limit);
  }
}

=== FILE: roles.dfy ===
/** The three roles of the helpdesk and their spelling in requests and
    documents ("user", "agent", "admin"). */
module Roles {
  import opened Common

  datatype Role = UserRole | AgentRole | AdminRole

  function RoleText(r: Role): string {
    match r
    case UserRole => "user"
    case AgentRole => "agent"
    case AdminRole => "admin"
  }

  /** Reads a role from a request field: exactly the three spellings are
      accepted (the `validRoles` list and the schema enums). */
  function ParseRole(s: string): (r: Option<Role>)
    ensures r.Some? ==> RoleText(r.value) == s
    ensures r.None? <==> forall role :: RoleText(role) != s
  {
    if s == "user" then Some(UserRole)
    else if s == "agent" then Some(AgentRole)
    else if s == "admin" then Some(AdminRole)
    else None
  }

  lemma {:induction false} ParseRoleText(r: Role)
    ensures ParseRole(RoleText(r)) == Some(r)
  {
    match r
    case UserRole =>
    case AgentRole =>
    case AdminRole =>
  }

  /** Staff may see every ticket and change statuses. */
  predicate IsStaff(r: Role) {
    r == AgentRole || r == AdminRole
  }
}

=== FILE: ticket_model.dfy ===
/** The ticket document (backend/models/Ticket.js): its enums and defaults,
    the embedded comment, and the `QD-` number formatter of the pre-save
    hook. */
module TicketModel {
  import opened Common

  datatype Priority = Low | Medium | High | Urgent
  datatype Status = Open | InProgress | Resolved | Closed

  const DefaultPriority: Priority := Medium
  const DefaultStatus: Status := Open

  function PriorityText(p: Priority): string {
    match p
    case Low => "low"
    case Medium => "medium"
    case High => "high"
    case Urgent => "urgent"
  }

  function StatusText(s: Status): string {
    match s
    case Open => "open"
    case InProgress => "in-progress"
    case Resolved => "resolved"
    case Closed => "closed"
  }

  /** The schema's priority enum: exactly the four spellings are accepted. */
  function ParsePriority(s: string): (r: Option<Priority>)
    ensures r.Some? ==> PriorityText(r.value) == s
    ensures r.None? <==> forall p :: PriorityText(p) != s
  {
    if s == "low" then Some(Low)
    else if s == "medium" then Some(Medium)
    else if s == "high" then Some(High)
    else if s == "urgent" then Some(Urgent)
    else None
  }

  /** The status enum (and the status route's `validStatuses` list). */
  function ParseStatus(s: string): (r: Option<Status>)
    ensures r.Some? ==> StatusText(r.value) == s
    ensures r.None? <==> forall st :: StatusText(st) != s
  {
    if s == "open" then Some(Open)
    else if s == "in-progress" then Some(InProgress)
    else if s == "resolved" then Some(Resolved)
    else if s == "closed" then Some(Closed)
    else None
  }

  /** An uploaded file as recorded on a ticket or comment. */
  datatype Attachment = Attachment(filename: string, originalName: string, path: string, size: nat)

  datatype Comment = Comment(
    user: Id,
    message: string,
    isInternal: bool,
    attachments: seq<Attachment>,
    createdAt: nat)

  /** The comment sub-schema: `user` and a non-empty `message` are required,
      `isInternal` defaults to false. `None` is the validation error `save`
      raises. */
  function NewComment(user: Id, message: string, isInternal: Option<bool>,
                      attachments: seq<Attachment>, now: nat): (r: Option<Comment>)
    ensures r.Some? <==> message != ""
    ensures r.Some? ==> r.value.user == user && r.value.message == message
    ensures r.Some? ==> (r.value.isInternal <==> isInternal == Some(true))
  {
    if message == "" then None
    else Some(Comment(user, message, isInternal.GetOr(false), attachments, now))
  }

  datatype Ticket = Ticket(
    id: Id,
    ticketNumber: Id,
    subject: string,
    description: string,
    category: Id,
    priority: Priority,
    status: Status,
    createdBy: Id,
    assignedTo: Option<Id>,
    attachments: seq<Attachment>,
    comments: seq<Comment>,
    upvotes: seq<Id>,
    downvotes: seq<Id>,
    tags: seq<string>,
    resolvedAt: Option<nat>,
    closedAt: Option<nat>,
    createdAt: nat,
    updatedAt: nat)

  /** A fresh ticket document with the schema's defaults: status open, no
      assignee, comments, votes, tags or stamps. */
  function NewTicket(id: Id, ticketNumber: Id, subject: string, description: string,
                     category: Id, priority: Priority, createdBy: Id,
                     attachments: seq<Attachment>, now: nat): Ticket
  {
    Ticket(id, ticketNumber, subject, description, category, priority, DefaultStatus,
           createdBy, None, attachments, [], [], [], [], None, None, now, now)
  }

  /** The votes of a ticket: nobody occurs twice, and nobody is in both lists.
      The schema keeps both as plain lists; only the vote route keeps this. */
  ghost predicate VotesExclusive(t: Ticket) {
    forall v :: multiset(t.upvotes)[v] + multiset(t.downvotes)[v] <= 1
  }

  // ---------------------------------------------------------------------------
  // The pre-save ticket number: "QD-" followed by count + 1, zero-padded to
  // at least six digits.

  predicate IsDigit(c: char) {
    '0' <= c <= '9'
  }

  predicate AllDigits(s: string) {
    forall i :: 0 <= i < |s| ==> IsDigit(s[i])
  }

  function DigitChar(d: nat): (c: char)
    requires d < 10
    ensures IsDigit(c)
  {
    ('0' as int + d) as char
  }

  function DigitValue(c: char): nat
    requires IsDigit(c)
  {
    c as int - '0' as int
  }

  /** `String(n)`: the decimal digits of `n`, without leading zeros. */
  function Decimal(n: nat): (r: string)
    ensures |r| >= 1 && AllDigits(r)
    ensures r[0] != '0' || n == 0
  {
    if n < 10 then [DigitChar(n)] else Decimal(n / 10) + [DigitChar(n % 10)]
  }

  /** The number a string of decimal digits denotes. */
  function ValueOf(s: string): nat
    requires AllDigits(s)
  {
    if |s| == 0 then 0 else ValueOf(s[..|s| - 1]) * 10 + DigitValue(s[|s| - 1])
  }

  lemma {:induction false} DecimalValue(n: nat)
    ensures ValueOf(Decimal(n)) == n
  {
    if n >= 10 {
      var d := Decimal(n / 10) + [DigitChar(n % 10)];
      assert d[..|d| - 1] == Decimal(n / 10);
      DecimalValue(n / 10);
    }
  }

  /** `s.padStart(width, fill)`. */
  function PadStart(s: string, width: nat, fill: char): (r: string)
    ensures |r| == if |s| >= width then |s| else width
    ensures r[|r| - |s|..] == s
    ensures forall i :: 0 <= i < |r| - |s| ==> r[i] == fill
  {
    if |s| >= width then s else seq(width - |s|, _ => fill) + s
  }

  lemma {:induction false} LeadingZerosValue(z: string, s: string)
    requires forall i :: 0 <= i < |z| ==> z[i] == '0'
    requires AllDigits(s)
    ensures AllDigits(z + s) && ValueOf(z + s) == ValueOf(s)
    decreases |z| + |s|
  {
    if |s| > 0 {
      var w := z + s;
      assert w[..|w| - 1] == z + s[..|s| - 1];
      LeadingZerosValue(z, s[..|s| - 1]);
    } else if |z| > 0 {
      assert z + s == z;
      assert z[..|z| - 1] + [] == z[..|z| - 1];
      LeadingZerosValue(z[..|z| - 1], []);
    }
  }

  /** `QD-${String(count + 1).padStart(6, "0")}`: exactly six digits, or more
      digits without a leading zero once the number needs them. */
  function FormatTicketNumber(count: nat): (r: string)
    ensures |r| >= 9 && r[..3] == "QD-"
    ensures AllDigits(r[3..])
    ensures |r| == 9 || r[3] != '0'
  {
    var dec := Decimal(count + 1);
    var digits := PadStart(dec, 6, '0');
    assert |dec| >= 6 ==> digits == dec;
    assert (("QD-" + digits)[3..]) == digits;
    "QD-" + digits
  }

  /** Reads back the count a ticket number was formatted from. */
  function ParseTicketNumber(s: string): Option<nat> {
    if |s| >= 4 && s[..3] == "QD-" && AllDigits(s[3..]) && ValueOf(s[3..]) >= 1
    then Some(ValueOf(s[3..]) - 1)
    else None
  }

  /** Formatting is undone by parsing, so distinct counts give distinct
      ticket numbers. */
  lemma {:induction false} TicketNumberRoundTrip(count: nat)
    ensures ParseTicketNumber(FormatTicketNumber(count)) == Some(count)
  {
    var dec := Decimal(count + 1);
    var digits := PadStart(dec, 6, '0');
    var zeros := digits[..|digits| - |dec|];
    assert digits == zeros + dec;
    DecimalValue(count + 1);
    LeadingZerosValue(zeros, dec);
    assert FormatTicketNumber(count)[3..] == digits;
  }

  lemma TicketNumberInjective(a: nat, b: nat)
    requires FormatTicketNumber(a) == FormatTicketNumber(b)
    ensures a == b
  {
    TicketNumberRoundTrip(a);
    TicketNumberRoundTrip(b);
  }

  /** The pre-save hook: a number is generated only when the document has
      none (`!this.ticketNumber`); the generated one is "QD-" and the count
      plus one padded to six digits, so it reads back as the count. */
  function PreSaveTicketNumber(current: string, count: nat): (r: string)
    ensures current != "" ==> r == current
    ensures current == "" ==>
              && |r| >= 9 && r[..3] == "QD-" && AllDigits(r[3..]) && (|r| == 9 || r[3] != '0')
              && ParseTicketNumber(r) == Some(count)
  {
    if current == "" then
      TicketNumberRoundTrip(count);
      FormatTicketNumber(count)
    else current
  }
}

=== FILE: ticket_query.dfy ===
/** The ticket list of backend/routes/tickets.js (GET /): role-scoped
    visibility, exact-match filters, a case-insensitive search over three
    fields, a sort on one field, and a skip/limit page with totals.

    `page` and `limit` arrive as query strings that the route never checks;
    they are taken here as positive whole numbers. The search text is assumed
    to contain no regular-expression metacharacters, so `$regex` with the `i`
    option is a case-insensitive substring test. `ListTickets` is the route
    with that search working on all three fields; `ListTicketsAsWritten` is
    the route as the code stands, where the search fails on the ObjectId
    ticket number. */
module TicketQuery {
  import opened Common
  import opened Roles
  import opened TicketModel
  import opened Database
  import opened Order

  /** The query string; every field may be absent. */
  datatype ListQuery = ListQuery(
    page: Option<nat>,
    limit: Option<nat>,
    status: Option<string>,
    category: Option<string>,
    priority: Option<string>,
    search: Option<string>,
    sortBy: Option<string>,
    sortOrder: Option<string>,
    myTickets: Option<string>)

  /** The JSON answer: one page of tickets and the totals. */
  datatype TicketPage = TicketPage(tickets: seq<Ticket>, totalPages: nat, currentPage: nat, total: nat)

  /** `page = 1` when absent. */
  function PageNumber(q: ListQuery): nat { q.page.GetOr(1) }

  /** `limit = 10` when absent. */
  function PageSize(q: ListQuery): nat { q.limit.GetOr(10) }

  predicate PagingValid(q: ListQuery) {
    (q.page.Some? ==> q.page.value >= 1) && (q.limit.Some? ==> q.limit.value >= 1)
  }

  /** The list is limited to the caller's own tickets: always for plain users,
      and for agents and admins when `myTickets` is exactly "true". */
  predicate OwnOnly(me: User, q: ListQuery) {
    q.myTickets == Some("true") || me.role == UserRole
  }

  /** The search matches the subject, the description or the ticket number. */
  predicate SearchHit(t: Ticket, search: string) {
    MatchesCI(t.subject, search) || MatchesCI(t.description, search) || MatchesCI(t.ticketNumber, search)
  }

  /** The Mongo query the route builds: each filter applies only when present
      and non-empty, and all applied filters must hold. */
  predicate Matches(me: User, q: ListQuery, t: Ticket) {
    && (OwnOnly(me, q) ==> t.createdBy == me.id)
    && (Present(q.status) ==> StatusText(t.status) == q.status.value)
    && (Present(q.category) ==> t.category == q.category.value)
    && (Present(q.priority) ==> PriorityText(t.priority) == q.priority.value)
    && (Present(q.search) ==> SearchHit(t, q.search.value))
  }

  /** The tickets of `s` the query selects: each selected ticket as often as
      it occurs in `s`, nothing else. */
  function Matching(s: seq<Ticket>, me: User, q: ListQuery): (r: seq<Ticket>)
    ensures forall t :: multiset(r)[t] == if Matches(me, q, t) then multiset(s)[t] else 0
    ensures forall k :: 0 <= k < |r| ==> Matches(me, q, r[k])
    ensures |r| <= |s|
  {
    if |s| == 0 then []
    else
      assert s == [s[0]] + s[1..];
      (if Matches(me, q, s[0]) then [s[0]] else []) + Matching(s[1..], me, q)
  }

  /** Two queries that select the same tickets select the same sequence. */
  lemma {:induction false} MatchingAgrees(s: seq<Ticket>, me: User, q1: ListQuery, q2: ListQuery)
    requires forall t :: Matches(me, q1, t) == Matches(me, q2, t)
    ensures Matching(s, me, q1) == Matching(s, me, q2)
    decreases |s|
  {
    if |s| > 0 {
      MatchingAgrees(s[1..], me, q1, q2);
    }
  }

  /** A query that selects every ticket returns all of them in order. */
  lemma {:induction false} MatchingEverything(s: seq<Ticket>, me: User, q: ListQuery)
    requires forall k :: 0 <= k < |s| ==> Matches(me, q, s[k])
    ensures Matching(s, me, q) == s
    decreases |s|
  {
    if |s| > 0 {
      var rest := s[1..];
      forall k | 0 <= k < |rest| ensures Matches(me, q, rest[k]) {
        assert rest[k] == s[k + 1];
      }
      MatchingEverything(rest, me, q);
      assert Matching(s, me, q) == [s[0]] + rest by {
        assert Matches(me, q, s[0]);
      }
      assert [s[0]] + rest == s;
    }
  }

  // ---------------------------------------------------------------------------
  // Sorting

  /** `sortBy = "createdAt"` when absent. */
  function SortField(q: ListQuery): string { q.sortBy.GetOr("createdAt") }

  /** `sortOrder === "desc" ? -1 : 1`, with "desc" when absent. */
  predicate Descending(q: ListQuery) { q.sortOrder.GetOr("desc") == "desc" }

  function DateKey(d: Option<nat>): Key {
    if d.Some? then [d.value] else []
  }

  function IdKey(d: Option<Id>): Key {
    if d.Some? then TextKey(d.value) else []
  }

  /** The value MongoDB sorts a ticket by for the field `field`. The array
      fields, the version key `__v` and dotted paths are not modelled, and a
      name the schema does not have is missing from every ticket: for all of
      them every ticket gets the empty key, so all tie. */
  function SortKeyOf(field: string, t: Ticket): Key {
    if field == "_id" then TextKey(t.id)
    else if field == "createdAt" then [t.createdAt]
    else if field == "updatedAt" then [t.updatedAt]
    else if field == "resolvedAt" then DateKey(t.resolvedAt)
    else if field == "closedAt" then DateKey(t.closedAt)
    else if field == "subject" then TextKey(t.subject)
    else if field == "description" then TextKey(t.description)
    else if field == "priority" then TextKey(PriorityText(t.priority))
    else if field == "status" then TextKey(StatusText(t.status))
    else if field == "ticketNumber" then TextKey(t.ticketNumber)
    else if field == "category" then TextKey(t.category)
    else if field == "createdBy" then TextKey(t.createdBy)
    else if field == "assignedTo" then IdKey(t.assignedTo)
    else []
  }

  function KeyFor(field: string): Ticket -> Key {
    (t: Ticket) => SortKeyOf(field, t)
  }

  /** All matching tickets in the requested order, before paging. */
  function Ranked(st: Store, me: User, q: ListQuery): (r: seq<Ticket>)
    ensures Sorted(r, KeyFor(SortField(q)), Descending(q))
    ensures multiset(r) == multiset(Matching(st.tickets, me, q))
  {
    Sort(Matching(st.tickets, me, q), KeyFor(SortField(q)), Descending(q))
  }

  /** A ranked ticket is a matching ticket of the store. */
  lemma RankedFromStore(st: Store, me: User, q: ListQuery, x: Ticket)
    requires x in Ranked(st, me, q)
    ensures x in st.tickets && Matches(me, q, x)
  {
    assert x in multiset(Ranked(st, me, q));
    assert multiset(Matching(st.tickets, me, q))[x] > 0;
  }

  // ---------------------------------------------------------------------------
  // The route

  /** GET /: the page of the ranked matching tickets that `page` and `limit`
      select, the number of matching tickets, and the number of pages. */
  function ListTickets(st: Store, me: User, q: ListQuery): (r: Reply<TicketPage>)
    requires PagingValid(q)
    ensures r.store == st && r.response.Ok? && r.response.code == StatusOk
    ensures var p := r.response.body;
            && p.currentPage == PageNumber(q)
            && p.total == |Matching(st.tickets, me, q)|
            && p.totalPages == CeilDiv(p.total, PageSize(q))
            && |p.tickets| <= PageSize(q)
            && (forall k :: 0 <= k < |p.tickets| ==> p.tickets[k] in st.tickets && Matches(me, q, p.tickets[k]))
            && Sorted(p.tickets, KeyFor(SortField(q)), Descending(q))
            && p.tickets == Page(Ranked(st, me, q), PageNumber(q), PageSize(q))
  {
    RankedPage(st, me, q);
    var total := |Matching(st.tickets, me, q)|;
    Reply(Ok(StatusOk, TicketPage(Page(Ranked(st, me, q), PageNumber(q), PageSize(q)),
                                  CeilDiv(total, PageSize(q)), PageNumber(q), total)), st)
  }

  lemma RankedLength(st: Store, me: User, q: ListQuery)
    ensures |Ranked(st, me, q)| == |Matching(st.tickets, me, q)|
  {
    assert |multiset(Ranked(st, me, q))| == |multiset(Matching(st.tickets, me, q))|;
  }

  /** What a page of the ranked tickets is made of. */
  lemma RankedPage(st: Store, me: User, q: ListQuery)
    requires PagingValid(q)
    ensures var items := Page(Ranked(st, me, q), PageNumber(q), PageSize(q));
            && Sorted(items, KeyFor(SortField(q)), Descending(q))
            && forall k :: 0 <= k < |items| ==> items[k] in st.tickets && Matches(me, q, items[k])
  {
    var ranked := Ranked(st, me, q);
    forall x | x in ranked ensures x in st.tickets && Matches(me, q, x) {
      RankedFromStore(st, me, q, x);
    }
    WindowOf(ranked, PageNumber(q), PageSize(q), KeyFor(SortField(q)), Descending(q));
  }

  /** A page of a sorted sequence is sorted and holds only its elements. */
  lemma WindowOf<T>(s: seq<T>, page: nat, limit: nat, key: T -> Key, desc: bool)
    requires page >= 1 && limit >= 1 && Sorted(s, key, desc)
    ensures Sorted(Page(s, page, limit), key, desc)
    ensures forall k :: 0 <= k < |Page(s, page, limit)| ==> Page(s, page, limit)[k] in s
  {
    var r := Page(s, page, limit);
    var skip := Skipped(page, limit);
    forall i, j | 0 <= i < j < |r| ensures InOrder(key, desc, r[i], r[j]) {
      assert r[i] == s[skip + i] && r[j] == s[skip + j];
    }
  }

  // ---------------------------------------------------------------------------
  // Properties

  /** A plain user only ever lists their own tickets, and `myTickets` makes no
      difference to what they get. */
  lemma UsersListOnlyOwnTickets(st: Store, me: User, q: ListQuery, mine: Option<string>)
    requires PagingValid(q) && me.role == UserRole
    ensures forall t :: t in ListTickets(st, me, q).response.body.tickets ==> t.createdBy == me.id
    ensures ListTickets(st, me, q) == ListTickets(st, me, q.(myTickets := mine))
  {
    MatchingAgrees(st.tickets, me, q, q.(myTickets := mine));
  }

  /** Agents and admins are limited to their own tickets only when `myTickets`
      is exactly "true"; otherwise a query without filters counts every
      ticket. */
  lemma StaffScope(st: Store, me: User, q: ListQuery)
    requires PagingValid(q) && IsStaff(me.role)
    ensures q.myTickets == Some("true") ==>
              forall t :: t in ListTickets(st, me, q).response.body.tickets ==> t.createdBy == me.id
    ensures q.myTickets != Some("true") && !Present(q.status) && !Present(q.category)
            && !Present(q.priority) && !Present(q.search) ==>
              ListTickets(st, me, q).response.body.total == |st.tickets|
  {
    if q.myTickets != Some("true") && !Present(q.status) && !Present(q.category)
       && !Present(q.priority) && !Present(q.search) {
      MatchingEverything(st.tickets, me, q);
    }
  }

  /** The totals do not depend on the page asked for. */
  lemma TotalsIgnorePage(st: Store, me: User, q: ListQuery, page: nat)
    requires PagingValid(q) && page >= 1
    ensures var a := ListTickets(st, me, q).response.body;
            var b := ListTickets(st, me, q.(page := Some(page))).response.body;
            a.total == b.total && a.totalPages == b.totalPages
  {
    MatchingAgrees(st.tickets, me, q, q.(page := Some(page)));
  }

  /** A page past the last one is empty, and still reports the total. */
  lemma PastEndIsEmpty(st: Store, me: User, q: ListQuery)
    requires PagingValid(q)
    requires PageNumber(q) > ListTickets(st, me, q).response.body.totalPages
    ensures ListTickets(st, me, q).response.body.tickets == []
    ensures ListTickets(st, me, q).response.body.total == |Matching(st.tickets, me, q)|
  {
    RankedLength(st, me, q);
    PastLastPage(Ranked(st, me, q), PageNumber(q), PageSize(q));
  }

  /** Every ticket the query selects is listed on some page between 1 and
      `totalPages`. */
  lemma EveryMatchIsListed(st: Store, me: User, q: ListQuery, j: nat)
    requires PagingValid(q)
    requires j < |st.tickets| && Matches(me, q, st.tickets[j])
    ensures exists p :: 1 <= p <= ListTickets(st, me, q).response.body.totalPages
                        && st.tickets[j] in ListTickets(st, me, q.(page := Some(p))).response.body.tickets
  {
    var i := RankOf(st, me, q, j);
    RankedLength(st, me, q);
    var p := PageHolding(Ranked(st, me, q), PageSize(q), i);
    ListedOnPage(st, me, q, p);
  }

  /** Ties are the only place the listing's order is open: when no two
      matching tickets share a sort key, every sorted arrangement of the
      matching tickets, whichever MongoDB picks, is `Ranked`, so the pages
      that `EveryMatchIsListed` speaks of are the ones any server returns. */
  lemma RankedIsForced(st: Store, me: User, q: ListQuery, other: seq<Ticket>)
    requires Sorted(other, KeyFor(SortField(q)), Descending(q))
    requires multiset(other) == multiset(Matching(st.tickets, me, q))
    requires forall i, j :: 0 <= i < j < |other| ==> SortKeyOf(SortField(q), other[i]) != SortKeyOf(SortField(q), other[j])
    ensures other == Ranked(st, me, q)
  {
    SortedUnique(other, Ranked(st, me, q), KeyFor(SortField(q)), Descending(q));
  }

  /** Sorting by `_id` leaves nothing open: ids are unique in a valid store,
      so every server returns the model's ranking, and so the model's pages. */
  lemma SortByIdIsForced(st: Store, me: User, q: ListQuery, other: seq<Ticket>)
    requires Valid(st) && SortField(q) == "_id"
    requires Sorted(other, KeyFor(SortField(q)), Descending(q))
    requires multiset(other) == multiset(Matching(st.tickets, me, q))
    ensures other == Ranked(st, me, q)
  {
    forall i, j | 0 <= i < j < |other|
      ensures SortKeyOf(SortField(q), other[i]) != SortKeyOf(SortField(q), other[j])
    {
      if SortKeyOf("_id", other[i]) == SortKeyOf("_id", other[j]) {
        var a, b := other[i], other[j];
        TextKeyInjective(a.id, b.id);
        assert a in multiset(other) && b in multiset(other);
        assert a in st.tickets && b in st.tickets;
        DistinctKeysSame(st.tickets, TicketId, a, b);
        RepeatedTwice(other, i, j);
        DistinctKeysOnce(st.tickets, TicketId, a);
        assert false;
      }
    }
    RankedIsForced(st, me, q, other);
  }

  /** The position of a matching ticket among the ranked ones. */
  lemma RankOf(st: Store, me: User, q: ListQuery, j: nat) returns (i: nat)
    requires j < |st.tickets| && Matches(me, q, st.tickets[j])
    ensures i < |Ranked(st, me, q)| && Ranked(st, me, q)[i] == st.tickets[j]
  {
    var t := st.tickets[j];
    assert t in multiset(st.tickets);
    assert t in multiset(Ranked(st, me, q));
    i :| 0 <= i < |Ranked(st, me, q)| && Ranked(st, me, q)[i] == t;
  }

  /** A page, among the first `CeilDiv(|s|, limit)`, that holds `s[i]`. */
  lemma PageHolding<T>(s: seq<T>, limit: nat, i: nat) returns (p: nat)
    requires limit >= 1 && i < |s|
    ensures 1 <= p <= CeilDiv(|s|, limit) && s[i] in Page(s, p, limit)
  {
    PageOf(s, limit, i);
    p := i / limit + 1;
  }

  /** Asking for page `p` lists that page of the ranked tickets. */
  lemma ListedOnPage(st: Store, me: User, q: ListQuery, p: nat)
    requires PagingValid(q) && p >= 1
    ensures ListTickets(st, me, q.(page := Some(p))).response.body.tickets == Page(Ranked(st, me, q), p, PageSize(q))
  {
    MatchingAgrees(st.tickets, me, q, q.(page := Some(p)));
  }

  /** The search is an OR over the fields: a ticket whose description contains
      the search text is found whatever its subject says. */
  lemma SearchMatchesDescriptionAlone(me: User, q: ListQuery, t: Ticket, at: nat)
    requires Present(q.search)
    requires OccursAt(Lower(t.description), Lower(q.search.value), at)
    requires !OwnOnly(me, q) && !Present(q.status) && !Present(q.category) && !Present(q.priority)
    ensures Matches(me, q, t)
  {
    ContainsIff(Lower(t.description), Lower(q.search.value));
  }

  /** ... and a ticket none of whose three fields contains it is not. */
  lemma SearchMissesUnrelated(me: User, q: ListQuery, t: Ticket)
    requires Present(q.search)
    requires forall i :: !OccursAt(Lower(t.subject), Lower(q.search.value), i)
    requires forall i :: !OccursAt(Lower(t.description), Lower(q.search.value), i)
    requires forall i :: !OccursAt(Lower(t.ticketNumber), Lower(q.search.value), i)
    ensures !Matches(me, q, t)
  {
    ContainsIff(Lower(t.subject), Lower(q.search.value));
    ContainsIff(Lower(t.description), Lower(q.search.value));
    ContainsIff(Lower(t.ticketNumber), Lower(q.search.value));
  }

  // ---------------------------------------------------------------------------
  // The search as written

  /** GET / as written: `ticketNumber` is an ObjectId path, and Mongoose
      refuses `$regex` on an ObjectId path when it casts the query, so the
      `$or` that any non-empty `search` adds makes `Ticket.find` throw and the
      catch answer 500. Without a search the route is `ListTickets`. */
  function ListTicketsAsWritten(st: Store, me: User, q: ListQuery): (r: Reply<TicketPage>)
    requires PagingValid(q)
    ensures r.store == st
    ensures Present(q.search) ==> r.response.Fail? && r.response.code == ServerError
    ensures !Present(q.search) ==> r.response.Ok? && r.response.code == StatusOk
    ensures !Present(q.search) ==> r.response.body.total == |Matching(st.tickets, me, q)|
  {
    if Present(q.search) then Reply(Fail(ServerError, "Server error"), st)
    else ListTickets(st, me, q)
  }

  /** The discrepancy: a search that a ticket of the store satisfies lists it
      under the intended route, and the route as written answers 500. */
  lemma SearchAsWrittenLosesMatches(st: Store, me: User, q: ListQuery, j: nat)
    requires PagingValid(q) && Present(q.search)
    requires j < |st.tickets| && Matches(me, q, st.tickets[j])
    ensures ListTickets(st, me, q).response.body.total >= 1
    ensures ListTicketsAsWritten(st, me, q).response.code == ServerError
  {
  }
}

=== FILE: ticket_routes.dfy ===
/** The single-ticket routes of backend/routes/tickets.js: create, read by id,
    status change, comment and vote. Each takes the authenticated user `me`
    (see `AuthMiddleware.WithAuth`) and answers with the store afterwards.

    Uploaded files arrive as `files`, already stored by the upload middleware.
    The ticket's `_id` and its `ticketNumber` are ObjectIds the database
    generates; here they are the parameters `id` and `number`, assumed unused. */
module TicketRoutes {
  import opened Common
  import opened Roles
  import opened TicketModel
  import opened Database
  import opened AuthMiddleware

  // ---------------------------------------------------------------------------
  // Create (POST /)

  /** The multipart fields of a new ticket. */
  datatype TicketForm = TicketForm(
    subject: Option<string>,
    description: Option<string>,
    category: Option<string>,
    priority: Option<string>)

  /** The create validators: trimmed subject of at least 5 characters, trimmed
      description of at least 10 (as `isLength` counts), and a category that
      is a string. */
  predicate TicketFormValid(f: TicketForm) {
    && ValidatorLength(Trim(OrEmpty(f.subject))) >= 5
    && ValidatorLength(Trim(OrEmpty(f.description))) >= 10
    && f.category.Some?
  }

  /** `priority || "medium"`, checked against the schema's enum on save. */
  function PriorityChoice(p: Option<string>): (r: Option<Priority>)
    ensures !Present(p) ==> r == Some(DefaultPriority)
    ensures Present(p) ==> (r.Some? <==> ParsePriority(p.value).Some?)
    ensures r.Some? && Present(p) ==> PriorityText(r.value) == p.value
  {
    ParsePriority(OrDefault(p, PriorityText(DefaultPriority)))
  }

  ghost predicate TicketIdFresh(st: Store, id: Id) {
    forall i :: 0 <= i < |st.tickets| ==> st.tickets[i].id != id
  }

  ghost predicate TicketNumberFresh(st: Store, number: Id) {
    forall i :: 0 <= i < |st.tickets| ==> st.tickets[i].ticketNumber != number
  }

  /** Create as the route evidently intends it, without the call to the
      similar-ticket service: invalid fields give 400 and store nothing; a
      priority outside the enum fails the save (500); otherwise one open
      ticket, owned by the requester, is appended. */
  function CreateTicket(st: Store, me: User, form: TicketForm, files: seq<Attachment>,
                        id: Id, number: Id, now: nat): (r: Reply<Ticket>)
    requires TicketIdFresh(st, id) && TicketNumberFresh(st, number) && number != ""
    ensures r.response.Fail? ==> r.store == st
    ensures !TicketFormValid(form) ==> r.response.Fail? && r.response.code == BadRequest
    ensures TicketFormValid(form) && PriorityChoice(form.priority).None? ==>
              r.response.Fail? && r.response.code == ServerError
    ensures r.response.Ok? <==> TicketFormValid(form) && PriorityChoice(form.priority).Some?
    ensures r.response.Ok? ==>
              var t := r.response.body;
              && r.response.code == StatusCreated
              && r.store == st.(tickets := st.tickets + [t])
              && t.id == id && t.ticketNumber == number
              && t.subject == Trim(OrEmpty(form.subject))
              && t.description == Trim(OrEmpty(form.description))
              && t.category == form.category.value
              && t.priority == PriorityChoice(form.priority).value
              && t.createdBy == me.id
              && t.status == Open && t.assignedTo.None?
              && t.attachments == files && t.comments == []
              && t.upvotes == [] && t.downvotes == []
              && t.resolvedAt.None? && t.closedAt.None?
    ensures Valid(st) ==> Valid(r.store)
  {
    if !TicketFormValid(form) then
      Reply(Fail(BadRequest, "Validation failed"), st)
    else
      match PriorityChoice(form.priority)
      case None => Reply(Fail(ServerError, "Server error"), st)
      case Some(p) =>
        var t := NewTicket(id, number, Trim(OrEmpty(form.subject)), Trim(OrEmpty(form.description)),
                           form.category.value, p, me.id, files, now);
        var st' := st.(tickets := st.tickets + [t]);
        AppendTicketKeepsValid(st, t);
        Reply(Ok(StatusCreated, t), st')
  }

  /** Create as written: after validation the handler calls `axios.post`, but
      `axios` is never imported, so the call throws and the catch answers 500.
      No valid request ever stores a ticket. */
  function CreateTicketAsWritten(st: Store, me: User, form: TicketForm, files: seq<Attachment>): (r: Reply<Ticket>)
    ensures r.store == st && r.response.Fail?
    ensures r.response.code == if TicketFormValid(form) then ServerError else BadRequest
  {
    if !TicketFormValid(form) then Reply(Fail(BadRequest, "Validation failed"), st)
    else Reply(Fail(ServerError, "Server error"), st)
  }

  /** The discrepancy: for every request the corrected route accepts, the
      route as written answers 500 and the ticket is lost. */
  lemma CreateAsWrittenLosesTickets(st: Store, me: User, form: TicketForm, files: seq<Attachment>,
                                    id: Id, number: Id, now: nat)
    requires TicketIdFresh(st, id) && TicketNumberFresh(st, number) && number != ""
    requires CreateTicket(st, me, form, files, id, number, now).response.Ok?
    ensures CreateTicketAsWritten(st, me, form, files).response.code == ServerError
    ensures CreateTicketAsWritten(st, me, form, files).store.tickets == st.tickets
    ensures |CreateTicket(st, me, form, files, id, number, now).store.tickets| == |st.tickets| + 1
  {
  }

  /** A concrete request: a subject of five and a description of ten 'x'
      characters, with a well-formed ObjectId as category, is stored by the
      corrected route and refused with 500 by the route as written. */
  lemma CreateAsWrittenExample(me: User)
    ensures var form := TicketForm(Some(seq(5, _ => 'x')), Some(seq(10, _ => 'x')),
                                   Some("507f1f77bcf86cd799439011"), None);
            && CreateTicketAsWritten(Store([], [], [], []), me, form, []).response.code == ServerError
            && CreateTicket(Store([], [], [], []), me, form, [], "507f1f77bcf86cd799439012",
                            "507f1f77bcf86cd799439013", 0).response.code == StatusCreated
  {
    ExampleFormValid(seq(5, _ => 'x'), seq(10, _ => 'x'));
  }

  lemma ExampleFormValid(subject: string, description: string)
    requires subject == seq(5, _ => 'x') && description == seq(10, _ => 'x')
    ensures TicketFormValid(TicketForm(Some(subject), Some(description),
                                       Some("507f1f77bcf86cd799439011"), None))
  {
    TrimKeeps(subject);
    ValidatorLengthPlain(subject);
    TrimKeeps(description);
    ValidatorLengthPlain(description);
  }

  // ---------------------------------------------------------------------------
  // Ownership

  /** A plain user may only see or comment on tickets they created; agents
      and admins may see and comment on every ticket. */
  predicate CanAccess(me: User, t: Ticket) {
    me.role != UserRole || t.createdBy == me.id
  }

  // ---------------------------------------------------------------------------
  // Read one ticket (GET /:id)

  function GetTicket(st: Store, me: User, id: Id): (r: Reply<Ticket>)
    ensures r.store == st
    ensures TicketIndex(st, id).None? ==> r.response.Fail? && r.response.code == NotFound
    ensures TicketIndex(st, id).Some? ==>
              (r.response.Ok? <==> CanAccess(me, st.tickets[TicketIndex(st, id).value]))
    ensures r.response.Fail? && TicketIndex(st, id).Some? ==> r.response.code == Forbidden
    ensures r.response.Ok? ==>
              && r.response.code == StatusOk
              && r.response.body in st.tickets
              && r.response.body.id == id
              && CanAccess(me, r.response.body)
  {
    match TicketIndex(st, id)
    case None => Reply(Fail(NotFound, "Ticket not found"), st)
    case Some(i) =>
      if !CanAccess(me, st.tickets[i]) then Reply(Fail(Forbidden, "Access denied"), st)
      else Reply(Ok(StatusOk, st.tickets[i]), st)
  }

  /** A plain user asking for a ticket somebody else created is refused. */
  lemma UsersCannotReadOthersTickets(st: Store, me: User, i: nat)
    requires DistinctKeys(st.tickets, TicketId)
    requires i < |st.tickets| && me.role == UserRole && st.tickets[i].createdBy != me.id
    ensures GetTicket(st, me, st.tickets[i].id).response.code == Forbidden
  {
    IndexOfIsUnique(st.tickets, TicketId, i);
  }

  /** Agents and admins receive every existing ticket. */
  lemma StaffReadEveryTicket(st: Store, me: User, i: nat)
    requires DistinctKeys(st.tickets, TicketId)
    requires i < |st.tickets| && IsStaff(me.role)
    ensures GetTicket(st, me, st.tickets[i].id).response == Ok(StatusOk, st.tickets[i])
  {
    IndexOfIsUnique(st.tickets, TicketId, i);
  }

  // ---------------------------------------------------------------------------
  // Status change (PATCH /:id/status, agents and admins)

  /** The update the status route sends: the new status, a `resolvedAt` or
      `closedAt` stamp when the status is resolved or closed, and the update
      time. No stamp is ever cleared and no other field changes. */
  function ApplyStatus(t: Ticket, s: Status, now: nat): (r: Ticket)
    ensures r.status == s && r.updatedAt == now
    ensures s == Resolved ==> r.resolvedAt == Some(now)
    ensures s == Closed ==> r.closedAt == Some(now)
    ensures s != Resolved ==> r.resolvedAt == t.resolvedAt
    ensures s != Closed ==> r.closedAt == t.closedAt
    ensures t.resolvedAt.Some? ==> r.resolvedAt.Some?
    ensures t.closedAt.Some? ==> r.closedAt.Some?
    ensures r.(status := t.status, resolvedAt := t.resolvedAt, closedAt := t.closedAt,
               updatedAt := t.updatedAt) == t
  {
    var r := t.(status := s, updatedAt := now);
    var r := if s == Resolved then r.(resolvedAt := Some(now)) else r;
    if s == Closed then r.(closedAt := Some(now)) else r
  }

  /** The status field of the body, checked against `validStatuses`. */
  function StatusChoice(status: Option<string>): Option<Status> {
    if status.None? then None else ParseStatus(status.value)
  }

  function ChangeStatusAllowed(st: Store, id: Id, status: Option<string>, now: nat): Reply<Ticket> {
    match StatusChoice(status)
    case None => Reply(Fail(BadRequest, "Invalid status"), st)
    case Some(s) =>
      match TicketIndex(st, id)
      case None => Reply(Fail(NotFound, "Ticket not found"), st)
      case Some(i) =>
        var t := ApplyStatus(st.tickets[i], s, now);
        Reply(Ok(StatusOk, t), st.(tickets := st.tickets[i := t]))
  }

  /** Only agents and admins may change a status (403 for users); an unknown
      status is refused with 400 before the ticket is looked up; an unknown
      ticket gives 404. On success exactly the one ticket is rewritten, by
      `ApplyStatus`. */
  function ChangeStatus(st: Store, me: User, id: Id, status: Option<string>, now: nat): (r: Reply<Ticket>)
    ensures r.response.Fail? ==> r.store == st
    ensures !IsStaff(me.role) ==> r.response.Fail? && r.response.code == Forbidden
    ensures IsStaff(me.role) && StatusChoice(status).None? ==>
              r.response.Fail? && r.response.code == BadRequest
    ensures IsStaff(me.role) && StatusChoice(status).Some? && TicketIndex(st, id).None? ==>
              r.response.Fail? && r.response.code == NotFound
    ensures r.response.Ok? <==>
              IsStaff(me.role) && StatusChoice(status).Some? && TicketIndex(st, id).Some?
    ensures r.response.Ok? ==>
              var i := TicketIndex(st, id).value;
              && r.response.code == StatusOk
              && r.response.body == ApplyStatus(st.tickets[i], StatusChoice(status).value, now)
              && r.store == st.(tickets := st.tickets[i := r.response.body])
    ensures Valid(st) ==> Valid(r.store)
  {
    var r := Authorize([AgentRole, AdminRole], me, st, s => ChangeStatusAllowed(s, id, status, now));
    assert Valid(st) ==> Valid(r.store) by {
      if Valid(st) && r.response.Ok? {
        var i := TicketIndex(st, id).value;
        DistinctKeysReplace(st.tickets, TicketId, i, r.response.body);
        DistinctKeysReplace(st.tickets, TicketNumberOf, i, r.response.body);
      }
    }
    r
  }

  /** The scenario of resolving and then closing a ticket: the resolution
      stamp survives the close. */
  lemma ResolveThenClose(t: Ticket, now1: nat, now2: nat)
    ensures var closed := ApplyStatus(ApplyStatus(t, Resolved, now1), Closed, now2);
            closed.resolvedAt == Some(now1) && closed.closedAt == Some(now2) && closed.status == Closed
  {
  }

  // ---------------------------------------------------------------------------
  // Comments (POST /:id/comments)

  /** Appends one comment. The trimmed message must have a length of at
      least 1 as `isLength` counts it (400), the ticket must exist (404), and
      a plain user must own it (403).
      `isInternal` is set iff the field is exactly "true", whoever posts. */
  function AddComment(st: Store, me: User, id: Id, message: Option<string>, isInternal: Option<string>,
                      files: seq<Attachment>, now: nat): (r: Reply<Comment>)
    ensures r.response.Fail? ==> r.store == st
    ensures ValidatorLength(Trim(OrEmpty(message))) == 0 ==> r.response.Fail? && r.response.code == BadRequest
    ensures ValidatorLength(Trim(OrEmpty(message))) > 0 && TicketIndex(st, id).None? ==>
              r.response.Fail? && r.response.code == NotFound
    ensures ValidatorLength(Trim(OrEmpty(message))) > 0 && TicketIndex(st, id).Some?
            && !CanAccess(me, st.tickets[TicketIndex(st, id).value]) ==>
              r.response.Fail? && r.response.code == Forbidden
    ensures r.response.Ok? <==>
              && ValidatorLength(Trim(OrEmpty(message))) > 0
              && TicketIndex(st, id).Some?
              && CanAccess(me, st.tickets[TicketIndex(st, id).value])
    ensures r.response.Ok? ==>
              var i := TicketIndex(st, id).value;
              var t := st.tickets[i];
              var c := r.response.body;
              && r.response.code == StatusOk
              && c.user == me.id && c.message == Trim(OrEmpty(message))
              && (c.isInternal <==> isInternal == Some("true"))
              && c.attachments == files
              && r.store == st.(tickets := st.tickets[i := t.(comments := t.comments + [c], updatedAt := now)])
    ensures Valid(st) ==> Valid(r.store)
  {
    var text := Trim(OrEmpty(message));
    if ValidatorLength(text) == 0 then Reply(Fail(BadRequest, "Message is required"), st)
    else
      match TicketIndex(st, id)
      case None => Reply(Fail(NotFound, "Ticket not found"), st)
      case Some(i) =>
        var t := st.tickets[i];
        if !CanAccess(me, t) then Reply(Fail(Forbidden, "Access denied"), st)
        else
          var c := NewComment(me.id, text, Some(isInternal == Some("true")), files, now).value;
          var t' := t.(comments := t.comments + [c], updatedAt := now);
          var st' := st.(tickets := st.tickets[i := t']);
          ReplaceTicketKeepsValid(st, i, t');
          Reply(Ok(StatusOk, c), st')
  }

  /** Comments are append-only: after any comment request every ticket still
      begins with exactly the comments it had, and at most one was added. */
  lemma CommentsOnlyGrow(st: Store, me: User, id: Id, message: Option<string>, isInternal: Option<string>,
                         files: seq<Attachment>, now: nat, j: nat)
    requires j < |st.tickets|
    ensures var after := AddComment(st, me, id, message, isInternal, files, now).store.tickets;
            && |after| == |st.tickets|
            && |st.tickets[j].comments| <= |after[j].comments| <= |st.tickets[j].comments| + 1
            && after[j].comments[..|st.tickets[j].comments|] == st.tickets[j].comments
  {
    var r := AddComment(st, me, id, message, isInternal, files, now);
    if r.response.Ok? {
      var i := TicketIndex(st, id).value;
      if i == j {
        var cs := st.tickets[j].comments;
        assert (cs + [r.response.body])[..|cs|] == cs;
      }
    }
  }

  // ---------------------------------------------------------------------------
  // Votes (POST /:id/vote)

  /** `s` with every occurrence of `v` filtered out, order kept. */
  function Without(s: seq<Id>, v: Id): (r: seq<Id>)
    ensures multiset(r)[v] == 0
    ensures forall w :: w != v ==> multiset(r)[w] == multiset(s)[w]
    ensures |r| <= |s|
  {
    if |s| == 0 then []
    else
      assert s == [s[0]] + s[1..];
      (if s[0] == v then [] else [s[0]]) + Without(s[1..], v)
  }

  lemma {:induction false} WithoutConcat(a: seq<Id>, b: seq<Id>, v: Id)
    ensures Without(a + b, v) == Without(a, v) + Without(b, v)
    decreases |a|
  {
    if |a| > 0 {
      assert (a + b)[0] == a[0];
      assert (a + b)[1..] == a[1..] + b;
      WithoutConcat(a[1..], b, v);
      var head := if a[0] == v then [] else [a[0]];
      assert Without(a + b, v) == head + Without(a[1..] + b, v);
      assert Without(a, v) == head + Without(a[1..], v);
    } else {
      assert a + b == b;
    }
  }

  lemma {:induction false} WithoutTwice(s: seq<Id>, v: Id)
    ensures Without(Without(s, v), v) == Without(s, v)
    decreases |s|
  {
    if |s| > 0 {
      var head := if s[0] == v then [] else [s[0]];
      WithoutConcat(head, Without(s[1..], v), v);
      WithoutTwice(s[1..], v);
    }
  }

  /** Adding `v` back after filtering it out is undone by filtering again. */
  lemma WithoutAfterPush(s: seq<Id>, v: Id)
    ensures Without(Without(s, v) + [v], v) == Without(s, v)
  {
    WithoutConcat(Without(s, v), [v], v);
    WithoutTwice(s, v);
  }

  /** One vote list after a vote: the voter filtered out, then pushed back
      iff `push`. */
  function Recast(s: seq<Id>, voter: Id, push: bool): (r: seq<Id>)
    ensures multiset(r)[voter] == if push then 1 else 0
    ensures forall w :: w != voter ==> multiset(r)[w] == multiset(s)[w]
  {
    Without(s, voter) + if push then [voter] else []
  }

  /** The vote update: remove the voter from both lists, then push them onto
      upvotes for "up", downvotes for "down", and neither for anything else. */
  function CastVote(t: Ticket, voter: Id, kind: Option<string>, now: nat): (r: Ticket)
    ensures multiset(r.upvotes)[voter] + multiset(r.downvotes)[voter] <= 1
    ensures voter in r.upvotes <==> kind == Some("up")
    ensures voter in r.downvotes <==> kind == Some("down")
    ensures forall w :: w != voter ==>
              multiset(r.upvotes)[w] == multiset(t.upvotes)[w]
              && multiset(r.downvotes)[w] == multiset(t.downvotes)[w]
    ensures r.(upvotes := t.upvotes, downvotes := t.downvotes, updatedAt := t.updatedAt) == t
    ensures VotesExclusive(t) ==> VotesExclusive(r)
  {
    t.(upvotes := Recast(t.upvotes, voter, kind == Some("up")),
       downvotes := Recast(t.downvotes, voter, kind == Some("down")),
       updatedAt := now)
  }

  /** Recasting the same vote on a list changes nothing more. */
  lemma RecastTwice(s: seq<Id>, voter: Id, push: bool)
    ensures Recast(Recast(s, voter, push), voter, push) == Recast(s, voter, push)
  {
    if push {
      WithoutAfterPush(s, voter);
    } else {
      assert Recast(s, voter, push) == Without(s, voter);
      WithoutTwice(s, voter);
    }
  }

  /** Casting the same vote twice leaves the lists as one vote did. */
  lemma CastVoteIdempotent(t: Ticket, voter: Id, kind: Option<string>, now1: nat, now2: nat)
    ensures var once := CastVote(t, voter, kind, now1);
            var twice := CastVote(once, voter, kind, now2);
            twice.upvotes == once.upvotes && twice.downvotes == once.downvotes
  {
    RecastTwice(t.upvotes, voter, kind == Some("up"));
    RecastTwice(t.downvotes, voter, kind == Some("down"));
  }

  /** What the vote route answers: both counts and the requested vote. */
  datatype VoteTally = VoteTally(upvotes: nat, downvotes: nat, userVote: Option<string>)

  /** Any user may vote on any existing ticket (404 otherwise). */
  function Vote(st: Store, me: User, id: Id, kind: Option<string>, now: nat): (r: Reply<VoteTally>)
    ensures r.response.Fail? ==> r.store == st && r.response.code == NotFound
    ensures r.response.Ok? <==> TicketIndex(st, id).Some?
    ensures r.response.Ok? ==>
              var i := TicketIndex(st, id).value;
              var t := CastVote(st.tickets[i], me.id, kind, now);
              && r.store == st.(tickets := st.tickets[i := t])
              && r.response.body == VoteTally(|t.upvotes|, |t.downvotes|, kind)
    ensures Valid(st) ==> Valid(r.store)
  {
    match TicketIndex(st, id)
    case None => Reply(Fail(NotFound, "Ticket not found"), st)
    case Some(i) =>
      var t := CastVote(st.tickets[i], me.id, kind, now);
      var st' := st.(tickets := st.tickets[i := t]);
      assert Valid(st) ==> Valid(st') by {
        if Valid(st) {
          DistinctKeysReplace(st.tickets, TicketId, i, t);
          DistinctKeysReplace(st.tickets, TicketNumberOf, i, t);
        }
      }
      Reply(Ok(StatusOk, VoteTally(|t.upvotes|, |t.downvotes|, kind)), st')
  }

  /** Repeating a vote succeeds again with the same counts. */
  lemma RepeatedVoteKeepsCounts(st: Store, me: User, id: Id, kind: Option<string>, now1: nat, now2: nat)
    requires Vote(st, me, id, kind, now1).response.Ok?
    ensures var first := Vote(st, me, id, kind, now1);
            var second := Vote(first.store, me, id, kind, now2);
            second.response == first.response
  {
    var i := TicketIndex(st, id).value;
    var t := CastVote(st.tickets[i], me.id, kind, now1);
    IndexOfAfterReplace(st.tickets, TicketId, id, t);
    CastVoteIdempotent(st.tickets[i], me.id, kind, now1, now2);
  }
}

=== FILE: upgrade_request_model.dfy ===
/** The upgrade-request document (backend/models/UpgradeRequest.js): a user's
    request to move to a higher role, with its review fields. */
module UpgradeRequestModel {
  import opened Common
  import opened Roles

  datatype RequestStatus = Pending | Approved | Rejected

  function RequestStatusText(s: RequestStatus): string {
    match s
    case Pending => "pending"
    case Approved => "approved"
    case Rejected => "rejected"
  }

  /** The schema's status enum. */
  function ParseRequestStatus(s: string): (r: Option<RequestStatus>)
    ensures r.Some? ==> RequestStatusText(r.value) == s
    ensures r.None? <==> forall st :: RequestStatusText(st) != s
  {
    if s == "pending" then Some(Pending)
    else if s == "approved" then Some(Approved)
    else if s == "rejected" then Some(Rejected)
    else None
  }

  /** The roles one may ask for: the `requestedRole` enum is agent or admin. */
  type TargetRole = r: Role | r != UserRole witness AgentRole

  function ParseTargetRole(s: string): (r: Option<TargetRole>)
    ensures r.Some? ==> RoleText(r.value) == s
    ensures r.None? <==> s != "agent" && s != "admin"
  {
    if s == "agent" then Some(AgentRole)
    else if s == "admin" then Some(AdminRole)
    else None
  }

  datatype UpgradeRequest = UpgradeRequest(
    id: Id,
    userId: Id,
    userName: string,
    userEmail: string,
    currentRole: Role,
    requestedRole: TargetRole,
    reason: string,
    status: RequestStatus,
    adminNotes: string,
    reviewedBy: Option<Id>,
    reviewedAt: Option<nat>,
    createdAt: nat)

  /** Building and saving a new request document: the schema's required
      fields, enums and defaults. `None` is the validation error `save`
      raises. */
  function NewUpgradeRequest(id: Id, userId: Id, userName: Option<string>, userEmail: string,
                             currentRole: Option<string>, requestedRole: Option<string>,
                             reason: Option<string>, now: nat): (r: Option<UpgradeRequest>)
    ensures r.Some? <==>
              && Present(userName) && userEmail != "" && Present(reason)
              && currentRole.Some? && ParseRole(currentRole.value).Some?
              && requestedRole.Some? && ParseTargetRole(requestedRole.value).Some?
    ensures r.Some? ==>
              && r.value.userId == userId && r.value.userName == userName.value
              && r.value.userEmail == userEmail && r.value.reason == reason.value
              && RoleText(r.value.currentRole) == currentRole.value
              && RoleText(r.value.requestedRole) == requestedRole.value
              && r.value.status == Pending && r.value.adminNotes == ""
              && r.value.reviewedBy.None? && r.value.reviewedAt.None?
  {
    if !Present(userName) || userEmail == "" || !Present(reason)
       || currentRole.None? || requestedRole.None? then None
    else
      match (ParseRole(currentRole.value), ParseTargetRole(requestedRole.value))
      case (Some(cur), Some(req)) =>
        Some(UpgradeRequest(id, userId, userName.value, userEmail, cur, req,
                            reason.value, Pending, "", None, None, now))
      case _ => None
  }
}

=== FILE: upgrade_routes.dfy ===
/** The role-upgrade routes of backend/routes/upgradeRequests.js: a user asks
    to become an agent (or an agent an admin), an admin lists and reviews the
    requests, and approval rewrites the user's role.

    Every route runs behind `auth` (see `AuthMiddleware.WithAuth`); `me` is the
    authenticated user. The new request's `_id` is the parameter `id`, assumed
    unused, and `now` is the clock. */
module UpgradeRoutes {
  import opened Common
  import opened Roles
  import opened Order
  import opened UpgradeRequestModel
  import opened Database
  import opened AuthMiddleware
  import TicketQuery

  // ---------------------------------------------------------------------------
  // Create (POST /)

  /** The JSON body of a new request. `currentRole` is whatever the client
      claims; the route never compares it with the stored role. */
  datatype UpgradeForm = UpgradeForm(
    currentRole: Option<string>,
    requestedRole: Option<string>,
    reason: Option<string>)

  /** `findOne({ userId, status: 'pending' })` finds something. */
  predicate HasPending(st: Store, uid: Id) {
    exists k :: 0 <= k < |st.requests| && st.requests[k].userId == uid && st.requests[k].status == Pending
  }

  /** The three upgrade-path checks: an admin may not ask, a user may only ask
      for agent, an agent only for admin. Any other claimed role passes them. */
  predicate PathAllowed(f: UpgradeForm) {
    && f.currentRole != Some("admin")
    && (f.currentRole == Some("user") ==> f.requestedRole == Some("agent"))
    && (f.currentRole == Some("agent") ==> f.requestedRole == Some("admin"))
  }

  /** The document the route builds and saves; `None` when the schema rejects it. */
  function Drafted(me: User, f: UpgradeForm, id: Id, now: nat): Option<UpgradeRequest> {
    NewUpgradeRequest(id, me.id, me.name, me.email, f.currentRole, f.requestedRole, f.reason, now)
  }

  ghost predicate RequestIdFresh(st: Store, id: Id) {
    forall k :: 0 <= k < |st.requests| ==> st.requests[k].id != id
  }

  /** No user has two pending requests at once. */
  ghost predicate OnePendingPerUser(st: Store) {
    forall a, b :: 0 <= a < b < |st.requests| && st.requests[a].status == Pending && st.requests[b].status == Pending
                   ==> st.requests[a].userId != st.requests[b].userId
  }

  /** A pending request of the caller refuses the new one (400); then the
      claimed path is checked (400); then the schema (500 on a missing name,
      e-mail or reason, or a role outside the enums). Otherwise one pending
      request is appended, and it asks for exactly the next role up. */
  function CreateUpgradeRequest(st: Store, me: User, f: UpgradeForm, id: Id, now: nat): (r: Reply<UpgradeRequest>)
    requires RequestIdFresh(st, id)
    ensures r.response.Fail? ==> r.store == st
    ensures HasPending(st, me.id) ==> r.response.Fail? && r.response.code == BadRequest
    ensures !HasPending(st, me.id) && !PathAllowed(f) ==> r.response.Fail? && r.response.code == BadRequest
    ensures !HasPending(st, me.id) && PathAllowed(f) && Drafted(me, f, id, now).None? ==>
              r.response.Fail? && r.response.code == ServerError
    ensures r.response.Ok? <==> !HasPending(st, me.id) && PathAllowed(f) && Drafted(me, f, id, now).Some?
    ensures r.response.Ok? ==>
              var q := r.response.body;
              && r.response.code == StatusCreated
              && r.store == st.(requests := st.requests + [q])
              && q.id == id && q.userId == me.id && q.status == Pending
              && q.userName == me.name.value && q.userEmail == me.email && q.reason == f.reason.value
              && q.adminNotes == "" && q.reviewedBy.None? && q.reviewedAt.None?
              && RoleText(q.currentRole) == f.currentRole.value
              && RoleText(q.requestedRole) == f.requestedRole.value
              && ((q.currentRole == UserRole && q.requestedRole == AgentRole)
                  || (q.currentRole == AgentRole && q.requestedRole == AdminRole))
    ensures Valid(st) ==> Valid(r.store)
    ensures OnePendingPerUser(st) ==> OnePendingPerUser(r.store)
  {
    if HasPending(st, me.id) then Reply(Fail(BadRequest, "You already have a pending upgrade request"), st)
    else if f.currentRole == Some("admin") then Reply(Fail(BadRequest, "Admin users cannot request upgrades"), st)
    else if f.currentRole == Some("user") && f.requestedRole != Some("agent") then
      Reply(Fail(BadRequest, "Users can only request upgrade to agent role"), st)
    else if f.currentRole == Some("agent") && f.requestedRole != Some("admin") then
      Reply(Fail(BadRequest, "Agents can only request upgrade to admin role"), st)
    else
      match Drafted(me, f, id, now)
      case None => Reply(Fail(ServerError, "Server error"), st)
      case Some(q) =>
        var st' := st.(requests := st.requests + [q]);
        assert Valid(st) ==> Valid(st') by {
          if Valid(st) {
            DistinctKeysAppend(st.requests, RequestId, q);
          }
        }
        assert OnePendingPerUser(st) ==> OnePendingPerUser(st') by {
          forall k | 0 <= k < |st.requests| && st.requests[k].status == Pending
            ensures st.requests[k].userId != q.userId
          {
          }
        }
        ParseRoleText(q.currentRole);
        Reply(Ok(StatusCreated, q), st')
  }

  /** The route trusts the claimed role: what it does depends on `me` only
      through the id, name and e-mail, never on the stored role. An admin who
      claims to be a user is let through to ask for agent. */
  lemma CreateIgnoresStoredRole(st: Store, me: User, f: UpgradeForm, id: Id, now: nat, role: Role)
    requires RequestIdFresh(st, id)
    ensures CreateUpgradeRequest(st, me, f, id, now) == CreateUpgradeRequest(st, me.(role := role), f, id, now)
  {
  }

  /** A user asking to jump straight to admin is refused. */
  lemma UserCannotSkipToAdmin(st: Store, me: User, reason: Option<string>, id: Id, now: nat)
    requires RequestIdFresh(st, id)
    ensures var r := CreateUpgradeRequest(st, me, UpgradeForm(Some("user"), Some("admin"), reason), id, now);
            r.response.Fail? && r.response.code == BadRequest && r.store == st
  {
  }

  // ---------------------------------------------------------------------------
  // Listing (GET / and GET /my-requests)

  function CreatedKey(q: UpgradeRequest): Key { [q.createdAt] }

  /** Every request, newest first; admins only (403 otherwise). */
  function ListUpgradeRequests(st: Store, me: User): (r: Reply<seq<UpgradeRequest>>)
    ensures r.store == st
    ensures r.response.Ok? <==> me.role == AdminRole
    ensures r.response.Fail? ==> r.response.code == Forbidden
    ensures r.response.Ok? ==>
              && r.response.code == StatusOk
              && Sorted(r.response.body, CreatedKey, true)
              && multiset(r.response.body) == multiset(st.requests)
  {
    if me.role != AdminRole then Reply(Fail(Forbidden, "Admin access required"), st)
    else Reply(Ok(StatusOk, Sort(st.requests, CreatedKey, true)), st)
  }

  /** The requests of user `uid`, each as often as in `s`, order kept. */
  function RequestsOf(s: seq<UpgradeRequest>, uid: Id): (r: seq<UpgradeRequest>)
    ensures forall x :: multiset(r)[x] == if x.userId == uid then multiset(s)[x] else 0
    ensures forall k :: 0 <= k < |r| ==> r[k].userId == uid
  {
    if |s| == 0 then []
    else
      assert s == [s[0]] + s[1..];
      (if s[0].userId == uid then [s[0]] else []) + RequestsOf(s[1..], uid)
  }

  /** The caller's own requests, newest first; open to every role. */
  function MyUpgradeRequests(st: Store, me: User): (r: Reply<seq<UpgradeRequest>>)
    ensures r.store == st && r.response.Ok? && r.response.code == StatusOk
    ensures Sorted(r.response.body, CreatedKey, true)
    ensures forall x :: multiset(r.response.body)[x] == if x.userId == me.id then multiset(st.requests)[x] else 0
  {
    Reply(Ok(StatusOk, Sort(RequestsOf(st.requests, me.id), CreatedKey, true)), st)
  }

  /** A request just created is among the creator's own requests. */
  lemma CreatedRequestIsListed(st: Store, me: User, f: UpgradeForm, id: Id, now: nat)
    requires RequestIdFresh(st, id)
    requires CreateUpgradeRequest(st, me, f, id, now).response.Ok?
    ensures var r := CreateUpgradeRequest(st, me, f, id, now);
            r.response.body in MyUpgradeRequests(r.store, me).response.body
  {
    var r := CreateUpgradeRequest(st, me, f, id, now);
    var q := r.response.body;
    assert q in r.store.requests by {
      assert r.store.requests[|st.requests|] == q;
    }
    assert multiset(MyUpgradeRequests(r.store, me).response.body)[q] > 0;
  }

  // ---------------------------------------------------------------------------
  // Review (PUT /:id)

  /** `User.findByIdAndUpdate(uid, { role })`: the user with that id gets the
      role; nothing happens when there is none. */
  function SetRole(st: Store, uid: Id, role: Role): (r: seq<User>)
    ensures |r| == |st.users|
    ensures UserIndex(st, uid).None? ==> r == st.users
    ensures UserIndex(st, uid).Some? ==>
              var u := UserIndex(st, uid).value;
              r == st.users[u := st.users[u].(role := role)]
  {
    match UserIndex(st, uid)
    case None => st.users
    case Some(u) => st.users[u := st.users[u].(role := role)]
  }

  /** Admins only (403), an unknown request gives 404. The status is written
      as given, whatever the request's current status: a value outside the
      enum fails the save (500) and changes nothing. Otherwise the review
      fields are stamped, and when the status is "approved" the requester's
      role becomes the requested one; no other user changes, and no status
      ever takes a role away. */
  function ReviewUpgradeRequest(st: Store, me: User, id: Id, status: string, adminNotes: Option<string>,
                                now: nat): (r: Reply<UpgradeRequest>)
    ensures r.response.Fail? ==> r.store == st
    ensures me.role != AdminRole ==> r.response.Fail? && r.response.code == Forbidden
    ensures me.role == AdminRole && RequestIndex(st, id).None? ==>
              r.response.Fail? && r.response.code == NotFound
    ensures me.role == AdminRole && RequestIndex(st, id).Some? && ParseRequestStatus(status).None? ==>
              r.response.Fail? && r.response.code == ServerError
    ensures r.response.Ok? <==>
              me.role == AdminRole && RequestIndex(st, id).Some? && ParseRequestStatus(status).Some?
    ensures r.response.Ok? ==>
              var i := RequestIndex(st, id).value;
              var before := st.requests[i];
              var q := r.response.body;
              && r.response.code == StatusOk
              && RequestStatusText(q.status) == status
              && q.adminNotes == OrDefault(adminNotes, "")
              && q.reviewedBy == Some(me.id) && q.reviewedAt == Some(now)
              && q.(status := before.status, adminNotes := before.adminNotes,
                    reviewedBy := before.reviewedBy, reviewedAt := before.reviewedAt) == before
              && r.store.requests == st.requests[i := q]
              && r.store.tickets == st.tickets && r.store.categories == st.categories
              && |r.store.users| == |st.users|
              && (forall k :: 0 <= k < |st.users| ==>
                    r.store.users[k] == st.users[k]
                    || (status == "approved" && st.users[k].id == q.userId
                        && r.store.users[k] == st.users[k].(role := q.requestedRole)))
              && (status == "approved" && UserIndex(st, q.userId).Some? ==>
                    r.store.users[UserIndex(st, q.userId).value].role == q.requestedRole)
    ensures Valid(st) ==> Valid(r.store)
  {
    if me.role != AdminRole then Reply(Fail(Forbidden, "Admin access required"), st)
    else
      match RequestIndex(st, id)
      case None => Reply(Fail(NotFound, "Upgrade request not found"), st)
      case Some(i) =>
        match ParseRequestStatus(status)
        case None => Reply(Fail(ServerError, "Server error"), st)
        case Some(s) =>
          var q := st.requests[i].(status := s, adminNotes := OrDefault(adminNotes, ""),
                                   reviewedBy := Some(me.id), reviewedAt := Some(now));
          var saved := st.(requests := st.requests[i := q]);
          var st' := if status == "approved" then saved.(users := SetRole(saved, q.userId, q.requestedRole)) else saved;
          assert Valid(st) ==> Valid(st') by {
            if Valid(st) {
              DistinctKeysReplace(st.requests, RequestId, i, q);
              if status == "approved" && UserIndex(st, q.userId).Some? {
                var u := UserIndex(st, q.userId).value;
                DistinctKeysReplace(st.users, UserId, u, st.users[u].(role := q.requestedRole));
                DistinctKeysReplace(st.users, UserEmail, u, st.users[u].(role := q.requestedRole));
              }
            }
          }
          Reply(Ok(StatusOk, q), st')
  }

  /** Approval promotes exactly the requester. */
  lemma ApprovalPromotesRequester(st: Store, me: User, id: Id, notes: Option<string>, now: nat, u: nat)
    requires Valid(st) && me.role == AdminRole && RequestIndex(st, id).Some?
    requires u < |st.users| && st.users[u].id == st.requests[RequestIndex(st, id).value].userId
    ensures var r := ReviewUpgradeRequest(st, me, id, "approved", notes, now);
            && r.response.Ok?
            && r.store.users == st.users[u := st.users[u].(role := st.requests[RequestIndex(st, id).value].requestedRole)]
  {
    IndexOfIsUnique(st.users, UserId, u);
  }

  /** Any other status leaves every user as it was. */
  lemma OnlyApprovalChangesUsers(st: Store, me: User, id: Id, status: string, notes: Option<string>, now: nat)
    requires status != "approved"
    ensures ReviewUpgradeRequest(st, me, id, status, notes, now).store.users == st.users
  {
  }

  /** Reviews are not final: an approved request can be rejected afterwards,
      and the role it granted stays. */
  lemma RejectAfterApproveKeepsRole(st: Store, me: User, id: Id, notes1: Option<string>, notes2: Option<string>,
                                    now1: nat, now2: nat, u: nat)
    requires Valid(st) && me.role == AdminRole && RequestIndex(st, id).Some?
    requires u < |st.users| && st.users[u].id == st.requests[RequestIndex(st, id).value].userId
    ensures var approved := ReviewUpgradeRequest(st, me, id, "approved", notes1, now1).store;
            var rejected := ReviewUpgradeRequest(approved, me, id, "rejected", notes2, now2);
            && rejected.response.Ok? && rejected.response.body.status == Rejected
            && rejected.store.users[u].role == st.requests[RequestIndex(st, id).value].requestedRole
  {
    ApprovalPromotesRequester(st, me, id, notes1, now1, u);
    var r1 := ReviewUpgradeRequest(st, me, id, "approved", notes1, now1);
    var i := RequestIndex(st, id).value;
    IndexOfAfterReplace(st.requests, RequestId, id, r1.response.body);
  }

  /** A review may set "pending" again, which can leave a user with two
      pending requests: the create route's one-pending rule is not kept by the
      review route. */
  lemma ReviewCanReopen(admin: User, a: UpgradeRequest, b: UpgradeRequest)
    requires admin.role == AdminRole && a.id != b.id && a.userId == b.userId
    requires a.status == Rejected && b.status == Pending
    ensures var st := Store([], [], [], [a, b]);
            && OnePendingPerUser(st)
            && !OnePendingPerUser(ReviewUpgradeRequest(st, admin, a.id, "pending", None, 0).store)
  {
    var st := Store([], [], [], [a, b]);
    assert RequestIndex(st, a.id) == Some(0);
    var after := ReviewUpgradeRequest(st, admin, a.id, "pending", None, 0).store;
    assert after.requests[0].status == Pending && after.requests[1] == b;
  }

  /** After approval to agent, the requester's next request authenticates as
      an agent, and their ticket list without filters counts every ticket. */
  lemma ApprovedAgentListsEveryTicket(st: Store, admin: User, id: Id, notes: Option<string>, now: nat,
                                      cookie: Option<string>, verify: string -> Option<Id>,
                                      q: TicketQuery.ListQuery)
    requires Valid(st) && admin.role == AdminRole && RequestIndex(st, id).Some?
    requires st.requests[RequestIndex(st, id).value].requestedRole == AgentRole
    requires UserIndex(st, st.requests[RequestIndex(st, id).value].userId).Some?
    requires Present(cookie) && verify(cookie.value) == Some(st.requests[RequestIndex(st, id).value].userId)
    requires TicketQuery.PagingValid(q) && q.myTickets.None?
    requires !Present(q.status) && !Present(q.category) && !Present(q.priority) && !Present(q.search)
    ensures var after := ReviewUpgradeRequest(st, admin, id, "approved", notes, now).store;
            var auth := Authenticate(after, cookie, verify);
            && auth.Ok? && auth.body.role == AgentRole
            && TicketQuery.ListTickets(after, auth.body, q).response.body.total == |after.tickets|
  {
    var i := RequestIndex(st, id).value;
    var uid := st.requests[i].userId;
    var u := UserIndex(st, uid).value;
    var after := ReviewUpgradeRequest(st, admin, id, "approved", notes, now).store;
    assert after.users[u] == st.users[u].(role := AgentRole);
    IndexOfAfterReplace(st.users, UserId, uid, after.users[u]);
    var me := Authenticate(after, cookie, verify).body;
    TicketQuery.StaffScope(after, me, q);
  }
}

=== FILE: user_routes.dfy ===
/** The user-administration routes of backend/routes/users.js: list the
    active users, change a role, deactivate an account. All three are behind
    `auth` and `authorize("admin")`. */
module UserRoutes {
  import opened Common
  import opened Roles
  import opened Order
  import opened Database
  import opened AuthMiddleware

  // ---------------------------------------------------------------------------
  // List (GET /)

  function JoinedKey(p: Profile): Key { [p.createdAt] }

  /** The active users of `s`, each as often as in `s`, order kept. */
  function ActiveUsers(s: seq<User>): (r: seq<User>)
    ensures forall x :: multiset(r)[x] == if x.isActive then multiset(s)[x] else 0
  {
    if |s| == 0 then []
    else
      assert s == [s[0]] + s[1..];
      (if s[0].isActive then [s[0]] else []) + ActiveUsers(s[1..])
  }

  /** `.select("-password")` on every user of `s`. */
  function Profiles(s: seq<User>): (r: seq<Profile>)
    ensures |r| == |s| && forall i :: 0 <= i < |s| ==> r[i] == ProfileOf(s[i])
  {
    seq(|s|, i requires 0 <= i < |s| => ProfileOf(s[i]))
  }

  /** Admins only (403): the profiles of the active users, each as often as
      the user is stored, newest first; a profile carries no password. */
  function ListUsers(st: Store, me: User): (r: Reply<seq<Profile>>)
    ensures r.store == st
    ensures r.response.Ok? <==> me.role == AdminRole
    ensures r.response.Fail? ==> r.response.code == Forbidden
    ensures r.response.Ok? ==>
              && r.response.code == StatusOk
              && Sorted(r.response.body, JoinedKey, true)
              && multiset(r.response.body) == multiset(Profiles(ActiveUsers(st.users)))
              && forall p :: p in r.response.body <==>
                   exists k :: 0 <= k < |st.users| && st.users[k].isActive && ProfileOf(st.users[k]) == p
  {
    Authorize([AdminRole], me, st, ListUsersAllowed)
  }

  function ListUsersAllowed(st: Store): (r: Reply<seq<Profile>>)
    ensures r.store == st && r.response.Ok? && r.response.code == StatusOk
    ensures Sorted(r.response.body, JoinedKey, true)
    ensures multiset(r.response.body) == multiset(Profiles(ActiveUsers(st.users)))
    ensures forall p :: p in r.response.body <==>
              exists k :: 0 <= k < |st.users| && st.users[k].isActive && ProfileOf(st.users[k]) == p
  {
    var listed := Sort(Profiles(ActiveUsers(st.users)), JoinedKey, true);
    ListedProfiles(st.users);
    Reply(Ok(StatusOk, listed), st)
  }

  lemma ListedProfiles(users: seq<User>)
    ensures forall p :: p in Sort(Profiles(ActiveUsers(users)), JoinedKey, true) <==>
              exists k :: 0 <= k < |users| && users[k].isActive && ProfileOf(users[k]) == p
  {
    forall p | p in Sort(Profiles(ActiveUsers(users)), JoinedKey, true)
      ensures exists k :: 0 <= k < |users| && users[k].isActive && ProfileOf(users[k]) == p
    {
      var k := ListedIsActive(users, p);
    }
    forall p | exists k :: 0 <= k < |users| && users[k].isActive && ProfileOf(users[k]) == p
      ensures p in Sort(Profiles(ActiveUsers(users)), JoinedKey, true)
    {
      var k :| 0 <= k < |users| && users[k].isActive && ProfileOf(users[k]) == p;
      ActiveIsListed(users, k);
    }
  }

  lemma ListedIsActive(users: seq<User>, p: Profile) returns (k: nat)
    requires p in Sort(Profiles(ActiveUsers(users)), JoinedKey, true)
    ensures k < |users| && users[k].isActive && ProfileOf(users[k]) == p
  {
    var active := ActiveUsers(users);
    var profiles := Profiles(active);
    assert p in multiset(Sort(profiles, JoinedKey, true));
    assert p in multiset(profiles);
    var i :| 0 <= i < |profiles| && profiles[i] == p;
    assert active[i] in multiset(active);
    assert active[i] in multiset(users) && active[i].isActive;
    k :| 0 <= k < |users| && users[k] == active[i];
  }

  lemma ActiveIsListed(users: seq<User>, k: nat)
    requires k < |users| && users[k].isActive
    ensures ProfileOf(users[k]) in Sort(Profiles(ActiveUsers(users)), JoinedKey, true)
  {
    var active := ActiveUsers(users);
    var profiles := Profiles(active);
    assert users[k] in multiset(users);
    assert users[k] in multiset(active);
    var i :| 0 <= i < |active| && active[i] == users[k];
    assert profiles[i] == ProfileOf(users[k]);
    assert ProfileOf(users[k]) in multiset(profiles);
    assert ProfileOf(users[k]) in multiset(Sort(profiles, JoinedKey, true));
  }

  // ---------------------------------------------------------------------------
  // Role change (PATCH /:id/role)

  function UpdateUserRoleAllowed(st: Store, id: Id, role: Option<string>): Reply<Profile> {
    var parsed := if role.Some? then ParseRole(role.value) else None;
    match parsed
    case None => Reply(Fail(BadRequest, "Invalid role"), st)
    case Some(newRole) =>
      match UserIndex(st, id)
      case None => Reply(Fail(NotFound, "User not found"), st)
      case Some(u) =>
        var user := st.users[u].(role := newRole);
        Reply(Ok(StatusOk, ProfileOf(user)), st.(users := st.users[u := user]))
  }

  /** Admins only (403). A role outside user, agent and admin gives 400 before
      any lookup; an unknown id 404. Otherwise only the target's role changes,
      and the answer is the target's profile. */
  function UpdateUserRole(st: Store, me: User, id: Id, role: Option<string>): (r: Reply<Profile>)
    ensures r.response.Fail? ==> r.store == st
    ensures me.role != AdminRole ==> r.response.Fail? && r.response.code == Forbidden
    ensures me.role == AdminRole && (role.None? || ParseRole(role.value).None?) ==>
              r.response.Fail? && r.response.code == BadRequest
    ensures me.role == AdminRole && role.Some? && ParseRole(role.value).Some? && UserIndex(st, id).None? ==>
              r.response.Fail? && r.response.code == NotFound
    ensures r.response.Ok? <==>
              me.role == AdminRole && role.Some? && ParseRole(role.value).Some? && UserIndex(st, id).Some?
    ensures r.response.Ok? ==>
              var u := UserIndex(st, id).value;
              && r.response.code == StatusOk
              && |r.store.users| == |st.users|
              && RoleText(r.store.users[u].role) == role.value
              && r.store == st.(users := st.users[u := st.users[u].(role := r.store.users[u].role)])
              && r.response.body == ProfileOf(r.store.users[u])
    ensures Valid(st) ==> Valid(r.store)
  {
    var r := Authorize([AdminRole], me, st, s => UpdateUserRoleAllowed(s, id, role));
    assert Valid(st) ==> Valid(r.store) by {
      if Valid(st) && r.response.Ok? {
        var u := UserIndex(st, id).value;
        var user := st.users[u].(role := ParseRole(role.value).value);
        DistinctKeysReplace(st.users, UserId, u, user);
        DistinctKeysReplace(st.users, UserEmail, u, user);
      }
    }
    r
  }

  /** Changing a role twice leaves what changing it once to the second role
      leaves: the last change wins. */
  lemma LastRoleChangeWins(st: Store, me: User, id: Id, first: Role, second: Role)
    requires me.role == AdminRole
    ensures var once := UpdateUserRole(st, me, id, Some(RoleText(second)));
            var twice := UpdateUserRole(UpdateUserRole(st, me, id, Some(RoleText(first))).store,
                                        me, id, Some(RoleText(second)));
            twice == once
  {
    ParseRoleText(first);
    ParseRoleText(second);
    var mid := UpdateUserRoleAllowed(st, id, Some(RoleText(first)));
    assert UpdateUserRole(st, me, id, Some(RoleText(first))) == mid;
    assert UpdateUserRole(mid.store, me, id, Some(RoleText(second)))
           == UpdateUserRoleAllowed(mid.store, id, Some(RoleText(second)));
    assert UpdateUserRole(st, me, id, Some(RoleText(second)))
           == UpdateUserRoleAllowed(st, id, Some(RoleText(second)));
    if UserIndex(st, id).Some? {
      var u := UserIndex(st, id).value;
      var promoted := st.users[u].(role := first);
      assert mid.store == st.(users := st.users[u := promoted]);
      IndexOfAfterReplace(st.users, UserId, id, promoted);
      assert UserIndex(mid.store, id) == Some(u);
      assert mid.store.users[u := promoted.(role := second)]
             == st.users[u := st.users[u].(role := second)];
    }
  }

  // ---------------------------------------------------------------------------
  // Deactivation (PATCH /:id/deactivate)

  function DeactivateUserAllowed(st: Store, id: Id): Reply<string> {
    match UserIndex(st, id)
    case None => Reply(Fail(NotFound, "User not found"), st)
    case Some(u) =>
      Reply(Ok(StatusOk, "User deactivated successfully"),
            st.(users := st.users[u := st.users[u].(isActive := false)]))
  }

  /** Admins only (403), unknown id 404; otherwise the account is only marked
      inactive. */
  function DeactivateUser(st: Store, me: User, id: Id): (r: Reply<string>)
    ensures r.response.Fail? ==> r.store == st
    ensures me.role != AdminRole ==> r.response.Fail? && r.response.code == Forbidden
    ensures me.role == AdminRole && UserIndex(st, id).None? ==> r.response.Fail? && r.response.code == NotFound
    ensures r.response.Ok? <==> me.role == AdminRole && UserIndex(st, id).Some?
    ensures r.response.Ok? ==>
              var u := UserIndex(st, id).value;
              && r.response.code == StatusOk
              && r.store == st.(users := st.users[u := st.users[u].(isActive := false)])
    ensures Valid(st) ==> Valid(r.store)
  {
    var r := Authorize([AdminRole], me, st, s => DeactivateUserAllowed(s, id));
    assert Valid(st) ==> Valid(r.store) by {
      if Valid(st) && r.response.Ok? {
        var u := UserIndex(st, id).value;
        DistinctKeysReplace(st.users, UserId, u, st.users[u].(isActive := false));
        DistinctKeysReplace(st.users, UserEmail, u, st.users[u].(isActive := false));
      }
    }
    r
  }

  /** Deactivating twice succeeds twice and leaves what deactivating once
      left. */
  lemma DeactivateIsIdempotent(st: Store, me: User, id: Id)
    requires me.role == AdminRole && UserIndex(st, id).Some?
    ensures var once := DeactivateUser(st, me, id);
            var twice := DeactivateUser(once.store, me, id);
            once.response.Ok? && twice.response.Ok? && twice.store == once.store
  {
    var once := DeactivateUser(st, me, id);
    var u := UserIndex(st, id).value;
    IndexOfAfterReplace(st.users, UserId, id, st.users[u].(isActive := false));
    assert once.store.users[u := once.store.users[u].(isActive := false)] == once.store.users;
  }

  /** A deactivated user is no longer listed. */
  lemma DeactivatedUserIsNotListed(st: Store, me: User, id: Id)
    requires Valid(st) && me.role == AdminRole
    ensures var after := DeactivateUser(st, me, id).store;
            forall p :: p in ListUsers(after, me).response.body ==> p.id != id
  {
    var after := DeactivateUser(st, me, id).store;
    var body := ListUsers(after, me).response.body;
    assert body == Sort(Profiles(ActiveUsers(after.users)), JoinedKey, true);
    forall p | p in body ensures p.id != id {
      var k := ListedIsActive(after.users, p);
      if UserIndex(st, id).Some? {
        var u := UserIndex(st, id).value;
        if k != u {
          assert st.users[k] == after.users[k] && st.users[u].id == id;
        }
      }
    }
  }
}
